=== FILE: README.md ===
# TokenScript compliance-test editor, modelled in Dafny

`manage.py` creates and edits the JSON test files of the TokenScript
compliance suite. It writes a text template, lets the user edit it in an
editor, parses the edited text back into a test record and saves the record.
This project models the parts of that script that compute something:

- **the editor-text parser** (`parse_editor_content`). This is a line scanner with
  an open-block mode (none, `input` or `expectedOutput`), a line buffer, an
  insertion-ordered record and a pending context text. The context text is
  decoded as JSON at the end. A decoding failure stops the script with
  status 1, which the model treats as a failure result.
- **the template generator** (`generate_editor_template`). It writes the blank
  template for a new test, or a template filled from a stored test.
- **the save rules**:
  - the file name of a new test, derived from its name and given a `.json` suffix;
  - the repair of the misspelled key `exceptedOutputType`;
  - the numbered menu of existing tests.

The files are:

- `wrappers.dfy`: `Option` and `Result`.
- `pystr.dfy`: the Python string methods the format relies on: `strip`, `split`, `split(sep, 1)`, `join`, `lower` and `replace`. Their split/join and strip properties are lemmas.
- `ordered_dict.dfy`: a Python dict as a sequence of key/value pairs. Assigning to a present key replaces the value in place, assigning to a new key appends it, and `pop` removes an entry.
- `editor_parser.dfy`: the parser. The loop body is the function `Step`. `RunFrom` scans a sequence of lines. The method `ParseEditorContent` is the loop itself, and is proved to compute `Parsed`.
- `parser_properties.dfy`: what the scan does with markers, block lines, `key: value` lines and the context line, over one line and over whole runs of lines.
- `editor_template.dfy`: the two templates.
- `round_trip.dfy`: parsing a rendered template gives back the values written into it.
- `template_cases.dfy`: the blank and the filled template read back. This includes the case of a context that spans several lines.
- `save_rules.dfy`: file name, key repair, menu.

JSON itself is not modelled:

- Decoding is a parameter `decode: string -> Option<J>` over an abstract value type `J`.
- The pretty-printed context is a string parameter of the filled template.
- Python's `str()` and truthiness of a non-string JSON value are the parameters `show` and `truthy`.

## Behaviour worth knowing

- Any end marker closes the block that is open, whichever block the marker belongs to (manage.py:124-130). A `# END_INPUT` line inside the expected-output block therefore stores the expected output.
- A start marker opens its block even while another block is open. The lines buffered so far are discarded, and the first block is never stored.
- When a record has both `exceptedOutputType` and `expectedOutputType`, both keys are kept (manage.py:269).
- A later `expectedOutputType` line overwrites an earlier one, and the last such line outside a block wins. The new value takes the old one's place in the key order.
- `input` and `expectedOutput` are stored only when their block closes, so the last closed block of each wins. `key: value` lines never store those two keys, nor `context`.
- For every other key the first line wins.
- The filled template shows only `name`, `input`, `expectedOutput`, the output type and `context` (manage.py:76-97). An unchanged edit of a stored test therefore drops every other key it holds, such as a `description`.
- The context text is the rest of the last `context:` line outside a block. It is `{}` when there is no such line. In the parsed record, `context` is always the last key.

## Model

| member | source | states |
|---|---|---|
| EditorParser.ParseEditorContent | manage.py:100-159 | The line loop computes `Parsed(text)`. After each line the loop variables equal the scan of the lines read so far. The result is the record with the decoded context, or the context-decoding error. |
| EditorParser.AsRecord | manage.py:154 | The collected record keeps its keys in order, and every value becomes a string value. |
| ParserProperties.RunAppend | manage.py:115-150 | Scanning `a + b` is scanning `b` from the state reached after `a`. |
| ParserProperties.StartMarkerOpens | manage.py:119-123 | A line that strips to a start marker opens that block and empties the buffer. This holds even while another block is open, and nothing is stored. |
| ParserProperties.EndMarkerCloses | manage.py:124-130 | A line that strips to either end marker closes the open block. It stores the buffered lines, joined by newlines and stripped, under the open block's key. The context text is unchanged. |
| ParserProperties.EndMarkerOutsideBlock | manage.py:124-130 | An end marker with no block open changes nothing. |
| ParserProperties.BlockLineCollected | manage.py:132-135 | Inside a block, a line whose stripped form does not start with `#` is appended to the buffer unchanged. |
| ParserProperties.BlockCommentSkipped | manage.py:132-135 | Inside a block, a comment line that is not a marker changes nothing. |
| ParserProperties.BlockBody | manage.py:115-135 | Inside a block, a run of non-marker lines appends exactly its non-comment lines, in order and unmodified. |
| ParserProperties.SectionFollowsMarkers | manage.py:112-130 | Which block is open after a run of lines depends only on the marker lines of the run. |
| ParserProperties.SectionContent | manage.py:119-135 | For a start marker, then lines L none of which is a marker, then an end marker: the stored text is the non-comment lines of L joined by newlines and stripped as a whole, and the block is then closed. A marker inside L would end or restart the block early. |
| ParserProperties.UnclosedBlockStoresNothing | manage.py:124-130 | If a block's key is absent before a run, and no end marker arrives while that block is open, the key is still absent after the run. This covers a block abandoned for the other block, which an end marker then closes. |
| ParserProperties.AbandonedInputBlock | manage.py:119-129 | The run `# START_INPUT`, `a`, `# START_EXPECTED_OUTPUT`, `b`, `# END_INPUT` leaves `input` absent from the record. |
| ParserProperties.PlainLineIgnored | manage.py:138 | Outside a block, a line that is not a marker and not a `key: value` line changes nothing. |
| ParserProperties.IgnoredLines | manage.py:133-138 | Outside a block, a run of lines that are not markers, each either a comment or without `:`, changes nothing. A marker line is a comment too, but it is excluded because it opens or closes a block. |
| ParserProperties.OrdinaryKeyLine | manage.py:138-147 | Outside a block, a `key: value` line that is not a comment, for any key except `expectedOutputType`, adds the key with its stripped value. It does not when the key is present already or is `context`, `input` or `expectedOutput`; then the record is unchanged. |
| ParserProperties.OutputTypeLine | manage.py:143-145 | Outside a block, an `expectedOutputType` line that is not a comment stores the value cut at its first `#` and stripped. The value holds no `#`. It replaces an earlier value in place, appends when the key is new, and leaves every other key alone. |
| ParserProperties.ContextLine | manage.py:149-150 | Outside a block, a `context:` line sets the context text to its stripped value and leaves the record alone. No other line changes the context text. |
| ParserProperties.FieldLine | manage.py:138-141 | With no block open, the line `key: v` is a key line when `key` is non-empty, does not start with `#`, has no whitespace at its ends and holds no `:`. Its key is then `key` and its value is `v` stripped. |
| ParserProperties.KeyLineSplit | manage.py:139-141 | A line holding `:` is cut at its first colon. The key is the stripped text before the colon, which holds no colon and is the first piece of splitting at every colon. The value is the stripped text after the colon. The two parts and the colon make up the line. |
| ParserProperties.LastContextLineWins | manage.py:149-150 | After a whole run of lines, the context text is the value of the last `context:` line outside a block. |
| ParserProperties.NotOutputTypeLineStep | manage.py:115-147 | Every line except an `expectedOutputType` key line outside a block leaves the output type as it was. |
| ParserProperties.LastOutputTypeLineWins | manage.py:143-145 | After a whole run of lines, the output type is the value of the last `expectedOutputType` line outside a block, cut at `#` and stripped. |
| EditorParser.Step | manage.py:115-150 | One pass of the loop body: the marker check, then collection inside a block, then the `key: value` handling. It has no contract of its own; its effect is stated by the lemmas StartMarkerOpens to StepData. |
| ParserProperties.DefaultContext | manage.py:103 | A text with no `context:` line outside a block has the context text `{}`. |
| ParserProperties.StepData | manage.py:115-150 | One line changes the record in one of three ways, or not at all. An end marker inside a block stores that block. An `expectedOutputType` key line outside a block sets the output type. Any other key line outside a block adds its key, if the key is new and is not `context`, `input` or `expectedOutput`. |
| ParserProperties.FirstOccurrenceWins | manage.py:146-147 | Once a key other than `expectedOutputType`, `input` or `expectedOutput` is in the record, no later line changes its value or removes it. |
| ParserProperties.KeysOnlyAppended | manage.py:115-150 | The scan never removes a key. The keys seen so far stay a prefix of the key order. |
| ParserProperties.RunKeepsWellFormed | manage.py:146 | From a state whose record has unique keys and no `context`, every run keeps both properties. |
| ParserProperties.ParsedShape | manage.py:152-159 | Parsing fails exactly when the context text does not decode, and the failure carries that text. On success, the record has unique keys, ends with `context` holding the decoded value, and holds only strings before it. |
| OrderedDict.Put | manage.py:145 | Assignment stores the value under the key and changes no other key. It keeps the key order when the key is present and appends it otherwise, and it keeps the keys unique. |
| OrderedDict.Remove | manage.py:270 | `pop` removes every entry for the key, keeping the order of the other keys. When the keys are unique, the key is absent afterwards, every other key keeps its value, and the keys stay unique. |
| PyStr.JoinSplit | manage.py:111 | Splitting at newlines and joining with newlines gives back the text. |
| EditorTemplate.GenerateEditorTemplate | manage.py:36-97 | The blank template without a stored test, the filled one with it. What parsing it gives back is stated by TemplateCases.GeneratedTemplateRoundTrip. |
| EditorTemplate.BlankTemplate | manage.py:40-66 | The fixed text for a new test. What it parses back to is stated by TemplateCases.BlankRoundTrip. |
| EditorTemplate.FilledTemplate | manage.py:68-97 | The fixed layout with the stored test's values, or the placeholders for missing ones, and the printed context. What it parses back to is stated by TemplateCases.FilledRoundTrip. |
| EditorTemplate.OutputType | manage.py:73 | The misspelled key's value when it is present and truthy, else the correct key's value, else empty. TemplateCases.EditRepairsOutputTypeKey states where it ends up after an edit. |
| TemplateRoundTrip.SplitTemplate | manage.py:76-97 | For a name, output type and help lines that are each one line, the rendered template splits into its lines as the parser sees them. Each block text becomes its own lines, and the final newline leaves an empty line. |
| TemplateRoundTrip.TypeHintCut | manage.py:93 | For an output type that is stripped, one line and without `#`, the type followed by the hint ` # or String, Boolean, etc.`, once stripped and cut at `#`, gives back the type. A type holding `#` would be cut short. |
| TemplateRoundTrip.BlockStep | manage.py:84-86 | From a state with no block open and the block's key absent, a block written by the template stores exactly its text under the block's key, appended at the end. This needs a text that is stripped and has no line that is a comment once stripped. |
| TemplateRoundTrip.ScanTemplate | manage.py:76-97 | When the values are writable (stripped; name and type on one line; type without `#`; no block line a comment; help lines are comments) and the context is one line, scanning the template stores name, input, expected output and output type in that order. The context text is then the stripped context. |
| TemplateRoundTrip.RoundTrip | manage.py:76-159 | Conditions: every value is stripped, the name and type are one line, the type holds no `#`, no line of either block is a comment, the help lines are comments and the context text is one line. Under these conditions, parsing the template gives back the four strings and the decoded context, or fails on that context. |
| TemplateCases.GeneratedTemplateRoundTrip | manage.py:36-97 | Parsing the generator's output gives the placeholder test when there is no stored test. For a stored test whose field texts survive the round trip and whose context is one line, it gives that test's fields under the correct keys with the decoded context last. Either way it fails exactly when the context does not decode. |
| TemplateCases.BlankRoundTrip | manage.py:40-66 | The blank template parses to name `Test name here`, input `Your TokenScript expression here`, expected output `Expected result here`, output type `Number` and the context decoded from `{}`. |
| TemplateCases.FilledRoundTrip | manage.py:76-97 | When the field texts it shows are writable (stripped; name and type on one line; type without `#`; no block line a comment) and the printed context is one line, the filled template of a record parses back to the fields it shows. They come under the correct keys, in template order, with the context last. It fails exactly when the stripped context does not decode. |
| TemplateCases.EditRepairsOutputTypeKey | manage.py:73 | When the field texts it shows are writable (stripped; name and type on one line; type without `#`; no block line a comment), the printed context is one line and it decodes, the unchanged edit parses, and it stores the output type under `expectedOutputType` with the misspelled key gone. The value is the misspelled key's value when that is truthy, else the correct key's value, else empty. |
| TemplateCases.EditDropsOtherKeys | manage.py:76-97 | When the field texts it shows are writable (stripped; name and type on one line; type without `#`; no block line a comment) and the one-line context decodes, the parsed record holds exactly `name`, `input`, `expectedOutput`, `expectedOutputType` and `context`. Any other key of the stored test is lost. |
| TemplateCases.IndentedContextFails | manage.py:70 | A stored context printed over several lines (`{"x": 3}`) is read back as `{`, and the edit fails with the context error. |
| TemplateCases.Flatten | manage.py:70 | The context with newlines turned into spaces is one line. |
| TemplateCases.FlatFilledRoundTrip | manage.py:70 | When the field texts it shows are writable (stripped; name and type on one line; type without `#`; no block line a comment), and the context is printed on one line, the filled template round-trips for any context. This assumes the decoder reads the flattened, stripped text as it reads the original, as `json.loads` does, since JSON allows a space wherever it allows a newline outside strings. |
| SaveRules.Slug | manage.py:247 | The name lower-cased with spaces turned into underscores. Its shape is stated by SaveRules.SlugShape. |
| SaveRules.SlugShape | manage.py:247 | The derived name has the name's length, no space and no upper-case letter. Each space becomes `_` and every other character is lower-cased. |
| SaveRules.WithJsonSuffix | manage.py:251-252 | The result ends in `.json` and starts with the given name. It is the name itself when that already ends in `.json`, and otherwise the name plus `.json`. |
| SaveRules.SuffixIdempotent | manage.py:251-252 | Adding the suffix twice is adding it once. |
| SaveRules.TestFilename | manage.py:246-252 | The file name of a new test always ends in `.json`. |
| SaveRules.GivenFilenameKept | manage.py:246-252 | A non-empty `--filename` is used as given, with `.json` added when missing. |
| SaveRules.DerivedFilename | manage.py:246-248 | Without `--filename`, the file name starts with the slug of the test's name and holds no space. |
| SaveRules.UnnamedFilename | manage.py:247 | Without `--filename` and without a name, the file is `new_test.json`. |
| SaveRules.NormalizeOutputTypeKey | manage.py:269-270 | For a record with unique keys: with `exceptedOutputType` present and `expectedOutputType` absent, the value moves to `expectedOutputType` at the end and the misspelled key is removed. Every other key keeps its value and order. Otherwise the record is unchanged. Keys stay unique. |
| SaveRules.Select | manage.py:178-194 | An empty list of tests is fatal. A choice `n` is accepted exactly when `1 <= n <= len(files)`, and then gives `files[n-1]`. |

## Findings

| source | as written | input that shows it | evidently intended | confidence | as-written member | corrected member |
|---|---|---|---|---|---|---|
| manage.py:70 | The filled template prints the stored context with `json.dumps(..., indent=2)`. That spans several lines for any non-empty object or list, but the parser reads only the rest of the `context:` line. | Editing, unchanged, a stored test whose context is `{"x": 3}`. The context text read back is `{`, decoding fails and the script exits with status 1. | An unchanged edit saves the test back, context included. One fix is to print the context on one line. | high; not executed | TemplateCases.IndentedContextFails | TemplateCases.FlatFilledRoundTrip |

## Left out

- `get_user_input_with_editor` (manage.py:12-33) is not modelled. It covers the temporary file, the `EDITOR` variable and starting the editor, which are process and file I/O.
- `find_test_files` (manage.py:162-173) is not modelled: it is a directory glob.
- `select_test_to_edit`'s prompt loop (manage.py:186-198) is not modelled: the printing, the `q` answer and `int()` parsing. `SaveRules.Select` takes the answer as an already-parsed number, and one call models one pass of the loop.
- The flow of `create_or_edit_test` and `main` (manage.py:201-304) is not modelled. This covers argument parsing, reading the stored test with `json.load`, the exit when the editor returns nothing (manage.py:229-231), directory creation, the overwrite prompt and writing the file with `json.dump`. All of it is CLI and file I/O around the modelled rules.
- `json.loads` and `json.dumps` are not modelled: they are library calls. They appear as the `decode` parameter and the `contextText` string.
- Python's `str()` and truthiness of non-string JSON values are not modelled either. They appear as the parameters `show` and `truthy`.
- PyStr.Lower: lower-cases only ASCII letters. Python's `str.lower()` also lower-cases non-ASCII letters, and some of those change length, so the file name of a name with non-ASCII capitals is not modelled exactly.
- `print` output and exit statuses other than the failure result are not modelled.
- SaveRules.TestFilename: takes the parsed `name` entry as a string. `EditorParser.ParseEditorContent` only ever stores strings under `name` (ParserProperties.ParsedShape). The `.lower()` failure on a non-string name therefore cannot arise from a parsed record, and it is not modelled.

=== FILE: editor_parser.dfy ===
/** The parser of the edited text (`parse_editor_content`). The text is split
    into lines and scanned once, top to bottom, with four loop variables: the
    record built so far (`test_data`), the open block (`current_section`), the
    lines collected for it (`section_content`) and the pending context text
    (`context_json`). After the scan the context text is decoded as JSON; a
    text that does not decode stops the program with status 1.

    `ScanState` and `Step` state what one pass of the loop body does; the
    method `ParseEditorContent` runs the loop itself and is proved to compute
    `Parsed`. The lemmas below say what the scan does with markers, block
    content, `key: value` lines and the context line. */
module EditorParser {
  import opened Wrappers
  import opened PyStr
  import opened OrderedDict

  /** The two delimited blocks of the editor text. */
  datatype Section = Input | ExpectedOutput

  /** The record key a block is stored under. */
  function SectionKey(s: Section): string
  {
    match s
    case Input => "input"
    case ExpectedOutput => "expectedOutput"
  }

  function StartMarker(s: Section): string
  {
    match s
    case Input => "# START_INPUT"
    case ExpectedOutput => "# START_EXPECTED_OUTPUT"
  }

  function EndMarker(s: Section): string
  {
    match s
    case Input => "# END_INPUT"
    case ExpectedOutput => "# END_EXPECTED_OUTPUT"
  }

  predicate IsEndMarker(t: string)
  {
    t == EndMarker(Input) || t == EndMarker(ExpectedOutput)
  }

  predicate IsMarker(t: string)
  {
    t == StartMarker(Input) || t == StartMarker(ExpectedOutput) || IsEndMarker(t)
  }

  const OutputTypeKey := "expectedOutputType"
  const ContextKey := "context"
  /** The context text used when no `context:` line is seen. */
  const DefaultContextSource := "{}"

  /** A value of a parsed record: a string, or the decoded JSON context. */
  datatype Value<J> = Str(s: string) | Ctx(json: J)

  type Record<J> = Dict<Value<J>>

  /** The one way parsing fails: the context text is not JSON. */
  datatype ParseError = ContextDecodeError(source: string)

  /** The loop variables of the scan. */
  datatype ScanState = ScanState(
    data: Dict<string>,          // test_data, every value a string until the context is added
    section: Option<Section>,    // current_section
    buffer: seq<string>,         // section_content
    contextSource: string)       // context_json

  const Initial := ScanState([], None, [], DefaultContextSource)

  /** Closing the open block (if any) stores its collected lines, joined by
      newlines and stripped as a whole, under the block's own key. */
  function Close(st: ScanState): ScanState
  {
    match st.section
    case None => st
    case Some(sec) =>
      st.(data := Put(st.data, SectionKey(sec), Strip(Join(st.buffer, '\n'))), section := None)
  }

  /** The inner loop over the two blocks, `input` first: a start marker opens
      its block and empties the buffer; an end marker closes whichever block is
      open, whether or not it is the marker's own. */
  function MarkerPhase(st: ScanState, stripped: string): ScanState
  {
    if stripped == StartMarker(Input) then st.(section := Some(Input), buffer := [])
    else if stripped == EndMarker(Input) then Close(st)
    else if stripped == StartMarker(ExpectedOutput) then st.(section := Some(ExpectedOutput), buffer := [])
    else if stripped == EndMarker(ExpectedOutput) then Close(st)
    else st
  }

  /** Inside a block, a line is collected unchanged unless its stripped form
      starts with `#` or is one of the block's own markers. */
  function CollectPhase(st: ScanState, line: string, stripped: string): ScanState
  {
    match st.section
    case None => st
    case Some(sec) =>
      if !StartsWith(stripped, "#") && stripped != StartMarker(sec) && stripped != EndMarker(sec)
      then st.(buffer := st.buffer + [line])
      else st
  }

  /** Outside a block, a line holding `:` whose stripped form does not start
      with `#` declares a key and a value. */
  predicate IsKeyLine(st: ScanState, line: string)
  {
    st.section.None? && ':' in line && !StartsWith(Strip(line), "#")
  }

  /** The key of a `key: value` line: the stripped text before the first colon. */
  function LineKey(line: string): string
  {
    Strip(Partition(line, ':').0)
  }

  /** The value of a `key: value` line: the stripped text after the first colon. */
  function LineValue(line: string): string
  {
    Strip(Partition(line, ':').1)
  }

  /** An output type with its `#` comment cut off. */
  function OutputTypeText(value: string): string
  {
    Strip(Split(value, '#')[0])
  }

  /** `expectedOutputType` is overwritten by every line that names it; any
      other key is stored by its first line only, and `context`, `input` and
      `expectedOutput` never by a `key: value` line. A `context` line sets the
      pending context text. */
  function KeyValuePhase(st: ScanState, line: string): ScanState
  {
    if IsKeyLine(st, line) then
      var key, value := LineKey(line), LineValue(line);
      var data :=
        if key == OutputTypeKey then Put(st.data, key, OutputTypeText(value))
        else if key !in Keys(st.data) && key != ContextKey
                && key != SectionKey(Input) && key != SectionKey(ExpectedOutput)
        then Put(st.data, key, value)
        else st.data;
      st.(data := data, contextSource := if key == ContextKey then value else st.contextSource)
    else st
  }

  /** One pass of the loop body over one line. */
  function Step(st: ScanState, line: string): ScanState
  {
    var stripped := Strip(line);
    KeyValuePhase(CollectPhase(MarkerPhase(st, stripped), line, stripped), line)
  }

  /** The state after scanning `lines` from `st`. */
  function RunFrom(st: ScanState, lines: seq<string>): ScanState
    decreases |lines|
  {
    if lines == [] then st
    else Step(RunFrom(st, lines[..|lines| - 1]), lines[|lines| - 1])
  }

  /** The state after scanning the whole text. */
  function Scanned(text: string): ScanState
  {
    RunFrom(Initial, Split(text, '\n'))
  }

  /** Every collected value as a record string. */
  function AsRecord<J>(d: Dict<string>): (r: Record<J>)
    ensures Keys(r) == Keys(d)
    ensures forall k :: Get(r, k) == if k in Keys(d) then Some(Str(Get(d, k).value)) else None
  {
    var r: Record<J> := seq(|d|, i requires 0 <= i < |d| => (d[i].0, Str(d[i].1)));
    assert Keys(r) == Keys(d);
    r
  }

  /** The end of the parse: decode the context text (`json.loads`, the
      parameter `decode`) and store it under `context`, or fail. */
  function Finish<J>(st: ScanState, decode: string -> Option<J>): Result<Record<J>, ParseError>
  {
    match decode(st.contextSource)
    case None => Failure(ContextDecodeError(st.contextSource))
    case Some(j) => Success(Put(AsRecord(st.data), ContextKey, Ctx(j)))
  }

  /** What parsing `text` gives. */
  function Parsed<J>(text: string, decode: string -> Option<J>): Result<Record<J>, ParseError>
  {
    Finish(Scanned(text), decode)
  }

  /** `parse_editor_content`: the line loop, with `json.loads` as `decode`. */
  method ParseEditorContent<J>(userInput: string, decode: string -> Option<J>)
    returns (result: Result<Record<J>, ParseError>)
    ensures result == Parsed(userInput, decode)
  {
    var data: Dict<string> := [];
    var contextJson := DefaultContextSource;
    var lines := Split(userInput, '\n');
    var current: Option<Section> := None;
    var content: seq<string> := [];

    for i := 0 to |lines|
      invariant ScanState(data, current, content, contextJson) == RunFrom(Initial, lines[..i])
    {
      var line := lines[i];
      var stripped := Strip(line);
      ghost var before := ScanState(data, current, content, contextJson);

      if stripped == StartMarker(Input) || stripped == StartMarker(ExpectedOutput) {
        current := if stripped == StartMarker(Input) then Some(Input) else Some(ExpectedOutput);
        content := [];
      } else if stripped == EndMarker(Input) || stripped == EndMarker(ExpectedOutput) {
        if current.Some? {
          data := Put(data, SectionKey(current.value), Strip(Join(content, '\n')));
          current := None;
        }
      }
      ghost var marked := ScanState(data, current, content, contextJson);
      assert marked == MarkerPhase(before, stripped);

      if current.Some? && !StartsWith(stripped, "#")
         && stripped != StartMarker(current.value) && stripped != EndMarker(current.value) {
        content := content + [line];
      }
      ghost var collected := ScanState(data, current, content, contextJson);
      assert collected == CollectPhase(marked, line, stripped);

      if current.None? && ':' in line && !StartsWith(Strip(line), "#") {
        var (rawKey, rawValue) := Partition(line, ':');
        var key, value := Strip(rawKey), Strip(rawValue);
        if key == OutputTypeKey {
          data := Put(data, key, Strip(Split(value, '#')[0]));
        } else if key !in Keys(data) && key != ContextKey
                  && key != SectionKey(Input) && key != SectionKey(ExpectedOutput) {
          data := Put(data, key, value);
        }
        if key == ContextKey {
          contextJson := value;
        }
      }

      assert ScanState(data, current, content, contextJson) == KeyValuePhase(collected, line);
      assert lines[..i + 1][..i] == lines[..i];
    }
    assert lines[..|lines|] == lines;

    match decode(contextJson)
    case None =>
      result := Failure(ContextDecodeError(contextJson));
    case Some(j) =>
      result := Success(Put(AsRecord(data), ContextKey, Ctx(j)));
  }
}

=== FILE: editor_template.dfy ===
/** The text put in the editor (`generate_editor_template`): a fixed layout
    of comment lines, a `name:` line, the two delimited blocks, an
    `expectedOutputType:` line with a trailing hint and a `context:` line.
    With no record the blocks and keys hold placeholder texts and a help
    comment explains the context; with a record its values are filled in. */
module EditorTemplate {
  import opened Wrappers
  import opened PyStr
  import opened OrderedDict
  import opened EditorParser

  // The fixed comment lines. Each line's text is exactly the template's.
  // Here and below, a literal longer than about thirty characters is written
  // as two or three joined pieces: the verifier then checks facts about the
  // line (that it holds no newline, that it is a comment) piece by piece,
  // which keeps those proofs small. The pieces carry no meaning of their own.
  const EditNote := "# Edit the test details" + " below. Lines starting" + " with # will be ignored."
  const SaveNote := "# Save and close the editor" + " when done."
  const InputNote := "# For input expression," + " write it between the START" + " and END markers below"
  const MultiLineNote := "# You can use multiple lines" + " for complex TokenScript" + " expressions"
  const OutputNote := "# For expected output," + " write it between the START" + " and END markers below"
  const ContextNote := "# Context (variables) section" + " - use JSON format"

  const Intro: seq<string> := [EditNote, SaveNote, ""]
  const InputHelp: seq<string> := ["", InputNote, MultiLineNote]
  const OutputHelp: seq<string> := ["", OutputNote]
  const ContextHeading: seq<string> := ["", ContextNote]

  /** The comment after the output type, and the space before it. */
  const HintComment := "# or String," + " Boolean, etc."
  const TypeHint := " " + HintComment

  /** The context help that only the blank template carries. */
  const BlankContextHelp: seq<string> := [
    "# Remove the {} and add" + " your context variables" + " if needed, e.g.:",
    "# {",
    "#   \"x\": 3,",
    "#   \"y\": \"hello\"",
    "# }"]

  const DefaultName := "Test name here"
  const DefaultInput := "Your TokenScript" + " expression here"
  const DefaultExpected := "Expected result here"
  const BlankOutputType := "Number"
  const MisspelledOutputTypeKey := "exceptedOutputType"

  /** A block as the template writes it: its start marker, its text, its end marker. */
  function Block(sec: Section, text: string): seq<string>
  {
    [StartMarker(sec), text, EndMarker(sec)]
  }

  /** The lines of the template. A block's text is one element and may hold
      newlines of its own; the text ends with a newline, hence the final "". */
  function Layout(name: string, input: string, expected: string, outputType: string,
                  contextHelp: seq<string>, context: string): seq<string>
  {
    Intro + ["name: " + name] + InputHelp
    + Block(Input, input)
    + OutputHelp
    + Block(ExpectedOutput, expected)
    + ["", "expectedOutputType: " + outputType + TypeHint]
    + ContextHeading + contextHelp
    + ["context: " + context, ""]
  }

  function Render(layout: seq<string>): string
  {
    Join(layout, '\n')
  }

  /** The template for a new test. */
  function BlankTemplate(): string
  {
    Render(Layout(DefaultName, DefaultInput, DefaultExpected, BlankOutputType, BlankContextHelp, "{}"))
  }

  /** How the f-string shows a record value: a string as it is, any other JSON
      value as Python's `str` of it (the parameter `show`). */
  function Shown<J>(v: Value<J>, show: J -> string): string
  {
    match v
    case Str(s) => s
    case Ctx(j) => show(j)
  }

  /** The text the template shows for `key`: its value, or `default` when the record lacks it. */
  function FieldText<J>(r: Record<J>, key: string, default: string, show: J -> string): string
  {
    match Get(r, key)
    case None => default
    case Some(v) => Shown(v, show)
  }

  /** Python truthiness of a record value: a string is true when non-empty;
      for any other JSON value it is the parameter `truthy`. */
  function Truthy<J>(v: Value<J>, truthy: J -> bool): bool
  {
    match v
    case Str(s) => s != ""
    case Ctx(j) => truthy(j)
  }

  /** The output type the filled template shows: the value under the
      misspelled key when there is one and it is truthy, else the value under
      the correct key, else the empty string. */
  function OutputType<J>(r: Record<J>, show: J -> string, truthy: J -> bool): string
  {
    match Get(r, MisspelledOutputTypeKey)
    case Some(v) =>
      if Truthy(v, truthy) then Shown(v, show) else FieldText(r, OutputTypeKey, "", show)
    case None => FieldText(r, OutputTypeKey, "", show)
  }

  /** The template for editing the record `r`; `contextText` is the context
      pretty-printed as JSON with an indent of 2 (`json.dumps`). */
  function FilledTemplate<J>(r: Record<J>, contextText: string, show: J -> string, truthy: J -> bool): string
  {
    Render(Layout(FieldText(r, "name", DefaultName, show),
                  FieldText(r, SectionKey(Input), DefaultInput, show),
                  FieldText(r, SectionKey(ExpectedOutput), DefaultExpected, show),
                  OutputType(r, show, truthy), [], contextText))
  }

  /** The template generator: the blank template without a stored test, the
      filled one with it. */
  function GenerateEditorTemplate<J>(testData: Option<Record<J>>, contextText: string,
                                     show: J -> string, truthy: J -> bool): string
  {
    match testData
    case None => BlankTemplate()
    case Some(r) => FilledTemplate(r, contextText, show, truthy)
  }
}

=== FILE: ordered_dict.dfy ===
/** A Python `dict` with string keys, as the script uses it: its entries in
    insertion order. Assigning to a key that is already present replaces the
    value where it stands; assigning to a new key appends it. */
module OrderedDict {
  import opened Wrappers

  type Dict<V> = seq<(string, V)>

  /** The keys in insertion order (`list(d)`). */
  function Keys<V>(d: Dict<V>): seq<string>
  {
    seq(|d|, i requires 0 <= i < |d| => d[i].0)
  }

  /** No string occurs twice in `ks`. */
  predicate Distinct(ks: seq<string>)
  {
    forall i, j :: 0 <= i < j < |ks| ==> ks[i] != ks[j]
  }

  /** No key occurs twice, as in every Python dict. */
  predicate UniqueKeys<V>(d: Dict<V>)
  {
    Distinct(Keys(d))
  }

  /** The position of the first occurrence of `k`. */
  function IndexOf(ks: seq<string>, k: string): (i: nat)
    requires k in ks
    ensures i < |ks| && ks[i] == k
    ensures forall j :: 0 <= j < i ==> ks[j] != k
  {
    if ks[0] == k then 0 else 1 + IndexOf(ks[1..], k)
  }

  /** The first occurrence does not move when something is appended. */
  lemma IndexOfAppend(ks: seq<string>, x: string, k: string)
    requires k in ks
    ensures IndexOf(ks + [x], k) == IndexOf(ks, k)
  {
    var b := IndexOf(ks, k);
    assert (ks + [x])[b] == k;
  }

  /** `d.get(k)`: the value stored under `k`, if any. */
  function Get<V>(d: Dict<V>, k: string): (r: Option<V>)
    ensures r.None? <==> k !in Keys(d)
    ensures r.Some? ==> (k, r.value) in d
  {
    if k in Keys(d) then Some(d[IndexOf(Keys(d), k)].1) else None
  }

  /** `d[k] = v`. */
  function Put<V>(d: Dict<V>, k: string, v: V): (r: Dict<V>)
    ensures Get(r, k) == Some(v)
    ensures forall k' :: k' != k ==> Get(r, k') == Get(d, k')
    ensures Keys(r) == if k in Keys(d) then Keys(d) else Keys(d) + [k]
    ensures UniqueKeys(d) ==> UniqueKeys(r)
  {
    if k in Keys(d) then
      var i := IndexOf(Keys(d), k);
      var r := d[i := (k, v)];
      assert Keys(r) == Keys(d);
      r
    else
      var r := d + [(k, v)];
      assert Keys(r) == Keys(d) + [k];
      assert IndexOf(Keys(r), k) == |d|;
      assert forall k' :: k' in Keys(d) ==> IndexOf(Keys(r), k') == IndexOf(Keys(d), k') by {
        forall k' | k' in Keys(d) {
          IndexOfAppend(Keys(d), k, k');
        }
      }
      r
  }

  /** Assigning to a new key appends one entry at the end. */
  lemma PutNew<V>(d: Dict<V>, k: string, v: V)
    requires k !in Keys(d)
    ensures Put(d, k, v) == d + [(k, v)]
  {
  }

  /** `ks` without the occurrences of `k`, the others kept in order. */
  function Without(ks: seq<string>, k: string): (r: seq<string>)
    ensures k !in r
    ensures forall x :: x in r <==> x in ks && x != k
  {
    if ks == [] then []
    else if ks[0] == k then Without(ks[1..], k)
    else [ks[0]] + Without(ks[1..], k)
  }

  /** Assigning one key leaves another absent key absent. */
  lemma PutKeepsOtherAbsent<V>(d: Dict<V>, k: string, v: V, absent: string)
    requires absent !in Keys(d) && k != absent
    ensures absent !in Keys(Put(d, k, v))
  {
  }

  /** The effect of `d.pop(k)` on `d`: the entry for `k` is gone and the
      other entries keep their values and their order. */
  function Remove<V>(d: Dict<V>, k: string): (r: Dict<V>)
    ensures UniqueKeys(d) ==> Get(r, k) == None
    ensures UniqueKeys(d) ==> forall k' :: k' != k ==> Get(r, k') == Get(d, k')
    ensures Keys(r) == Without(Keys(d), k)
    ensures UniqueKeys(d) ==> UniqueKeys(r)
  {
    RemoveKeys(d, k);
    DistinctWithout(Keys(d), k);
    var r := RemoveAll(d, k);
    assert UniqueKeys(d) ==> forall k' :: k' != k ==> Get(r, k') == Get(d, k') by {
      if UniqueKeys(d) {
        forall k' | k' != k {
          RemoveAllGet(d, k, k');
        }
      }
    }
    r
  }

  /** The entry-by-entry definition of the removal. */
  function RemoveAll<V>(d: Dict<V>, k: string): Dict<V>
  {
    if d == [] then []
    else if d[0].0 == k then RemoveAll(d[1..], k)
    else [d[0]] + RemoveAll(d[1..], k)
  }

  lemma {:induction false} RemoveKeys<V>(d: Dict<V>, k: string)
    ensures Keys(RemoveAll(d, k)) == Without(Keys(d), k)
  {
    if d != [] {
      RemoveKeys(d[1..], k);
      assert Keys(d) == [d[0].0] + Keys(d[1..]);
      if d[0].0 != k {
        assert Keys(RemoveAll(d, k)) == [d[0].0] + Keys(RemoveAll(d[1..], k));
      }
    }
  }

  /** With unique keys, the entries of the removal are those of `d` with another key. */
  lemma {:induction false} RemoveAllEntries<V>(d: Dict<V>, k: string)
    ensures forall e :: e in RemoveAll(d, k) <==> e in d && e.0 != k
  {
    if d != [] {
      RemoveAllEntries(d[1..], k);
      assert d == [d[0]] + d[1..];
    }
  }

  lemma RemoveAllGet<V>(d: Dict<V>, k: string, k': string)
    requires UniqueKeys(d) && k' != k
    ensures Get(RemoveAll(d, k), k') == Get(d, k')
  {
    RemoveKeys(d, k);
    DistinctWithout(Keys(d), k);
    RemoveAllEntries(d, k);
    var r := RemoveAll(d, k);
    match Get(d, k')
    case None =>
    case Some(v) =>
      assert (k', v) in r;
      GetUnique(r, k', v);
  }

  /** With unique keys, an entry in the dict is what `get` returns for its key. */
  lemma GetUnique<V>(d: Dict<V>, k: string, v: V)
    requires UniqueKeys(d) && (k, v) in d
    ensures Get(d, k) == Some(v)
  {
    var i :| 0 <= i < |d| && d[i] == (k, v);
    assert Keys(d)[i] == k;
    var j := IndexOf(Keys(d), k);
    assert Keys(d)[j] == k;
  }

  lemma {:induction false} DistinctWithout(ks: seq<string>, k: string)
    ensures Distinct(ks) ==> Distinct(Without(ks, k))
  {
    if ks != [] && Distinct(ks) {
      DistinctWithout(ks[1..], k);
      if ks[0] != k {
        var w := Without(ks[1..], k);
        assert ks[0] !in ks[1..];
        assert ks[0] !in w;
        assert forall j :: 0 <= j < |w| ==> ([ks[0]] + w)[j + 1] == w[j];
      }
    }
  }
}

=== FILE: parser_properties.dfy ===
/** What the scan of `parse_editor_content` does, stated line by line and over
    whole runs of lines: markers, block content, `key: value` lines, the
    context line, and the shape of the parsed record. */
module ParserProperties {
  import opened Wrappers
  import opened PyStr
  import opened OrderedDict
  import opened EditorParser

  /** Scanning two runs of lines one after the other is scanning their concatenation. */
  lemma {:induction false} RunAppend(st: ScanState, a: seq<string>, b: seq<string>)
    ensures RunFrom(st, a + b) == RunFrom(RunFrom(st, a), b)
    decreases |b|
  {
    if b == [] {
      assert a + b == a;
    } else {
      assert (a + b)[..|a + b| - 1] == a + b[..|b| - 1];
      RunAppend(st, a, b[..|b| - 1]);
    }
  }

  lemma RunOne(st: ScanState, line: string)
    ensures RunFrom(st, [line]) == Step(st, line)
  {
    assert [line][..0] == [];
  }

  // ---------------------------------------------------------------------
  // One line, phase by phase.

  lemma MarkerStartsWithHash(t: string)
    requires IsMarker(t)
    ensures StartsWith(t, "#")
  {
  }

  /** A marker line only goes through the marker phase. */
  lemma StepOnMarker(st: ScanState, line: string)
    requires IsMarker(Strip(line))
    ensures Step(st, line) == MarkerPhase(st, Strip(line))
  {
    MarkerStartsWithHash(Strip(line));
    var m := MarkerPhase(st, Strip(line));
    assert CollectPhase(m, line, Strip(line)) == m;
    assert KeyValuePhase(m, line) == m;
  }

  /** Any other line skips the marker phase. */
  lemma StepOffMarker(st: ScanState, line: string)
    requires !IsMarker(Strip(line))
    ensures Step(st, line) == KeyValuePhase(CollectPhase(st, line, Strip(line)), line)
  {
    assert MarkerPhase(st, Strip(line)) == st;
  }

  // ---------------------------------------------------------------------
  // Markers and blocks.

  /** A start marker opens its block and discards what was collected, even
      while the other block is open. */
  lemma StartMarkerOpens(st: ScanState, line: string, sec: Section)
    requires Strip(line) == StartMarker(sec)
    ensures Step(st, line) == st.(section := Some(sec), buffer := [])
  {
    StepOnMarker(st, line);
  }

  /** Any end marker closes the open block, and the collected text is stored
      under the OPEN block's key: `# END_INPUT` inside the expected-output
      block sets `expectedOutput`. */
  lemma EndMarkerCloses(st: ScanState, line: string, open: Section)
    requires IsEndMarker(Strip(line))
    requires st.section == Some(open)
    ensures Step(st, line).section.None?
    ensures Step(st, line).data == Put(st.data, SectionKey(open), Strip(Join(st.buffer, '\n')))
    ensures Step(st, line).contextSource == st.contextSource
  {
    StepOnMarker(st, line);
    assert MarkerPhase(st, Strip(line)) == Close(st);
  }

  /** An end marker with no open block changes nothing. */
  lemma EndMarkerOutsideBlock(st: ScanState, line: string)
    requires IsEndMarker(Strip(line))
    requires st.section.None?
    ensures Step(st, line) == st
  {
    StepOnMarker(st, line);
  }

  /** Inside a block, a line whose stripped form does not start with `#` is
      collected as it is, and nothing else changes. */
  lemma BlockLineCollected(st: ScanState, line: string)
    requires st.section.Some?
    requires !StartsWith(Strip(line), "#")
    ensures Step(st, line) == st.(buffer := st.buffer + [line])
  {
    if IsMarker(Strip(line)) {
      MarkerStartsWithHash(Strip(line));
    }
    StepOffMarker(st, line);
    var c := st.(buffer := st.buffer + [line]);
    assert CollectPhase(st, line, Strip(line)) == c;
    assert !IsKeyLine(c, line);
  }

  /** Inside a block, a comment line that is not a marker changes nothing. */
  lemma BlockCommentSkipped(st: ScanState, line: string)
    requires st.section.Some?
    requires StartsWith(Strip(line), "#") && !IsMarker(Strip(line))
    ensures Step(st, line) == st
  {
    StepOffMarker(st, line);
    assert CollectPhase(st, line, Strip(line)) == st;
    assert !IsKeyLine(st, line);
  }

  /** The lines a block keeps: those whose stripped form does not start with `#`. */
  function Kept(lines: seq<string>): seq<string>
  {
    if lines == [] then []
    else
      var last := lines[|lines| - 1];
      Kept(lines[..|lines| - 1]) + (if StartsWith(Strip(last), "#") then [] else [last])
  }

  /** The body of an open block adds exactly its kept lines to the buffer. */
  lemma {:induction false} BlockBody(st: ScanState, body: seq<string>)
    requires st.section.Some?
    requires forall l :: l in body ==> !IsMarker(Strip(l))
    ensures RunFrom(st, body) == st.(buffer := st.buffer + Kept(body))
    decreases |body|
  {
    if body != [] {
      var init, last := body[..|body| - 1], body[|body| - 1];
      assert forall l :: l in init ==> l in body;
      BlockBody(st, init);
      var mid := st.(buffer := st.buffer + Kept(init));
      assert last in body;
      if StartsWith(Strip(last), "#") {
        BlockCommentSkipped(mid, last);
        assert Kept(body) == Kept(init) + [];
      } else {
        BlockLineCollected(mid, last);
        assert st.buffer + Kept(init) + [last] == st.buffer + Kept(body);
      }
    }
  }

  /** The open block after a marker line whose stripped form is `t`. */
  function MarkerSection(sec: Option<Section>, t: string): Option<Section>
  {
    if t == StartMarker(Input) then Some(Input)
    else if t == StartMarker(ExpectedOutput) then Some(ExpectedOutput)
    else if IsEndMarker(t) then None
    else sec
  }

  /** The open block after a run of lines, read from the marker lines alone. */
  function SectionAfter(sec: Option<Section>, lines: seq<string>): Option<Section>
    decreases |lines|
  {
    if lines == [] then sec
    else MarkerSection(SectionAfter(sec, lines[..|lines| - 1]), Strip(lines[|lines| - 1]))
  }

  /** Only marker lines open or close a block. */
  lemma StepSection(st: ScanState, line: string)
    ensures Step(st, line).section == MarkerSection(st.section, Strip(line))
  {
    if IsMarker(Strip(line)) {
      StepOnMarker(st, line);
    } else {
      StepOffMarker(st, line);
      assert CollectPhase(st, line, Strip(line)).section == st.section;
    }
  }

  /** The open block at any point of the scan is determined by the marker
      lines alone: the last start marker opens its block and any end marker
      closes whatever is open. */
  lemma {:induction false} SectionFollowsMarkers(st: ScanState, lines: seq<string>)
    ensures RunFrom(st, lines).section == SectionAfter(st.section, lines)
    decreases |lines|
  {
    if lines != [] {
      SectionFollowsMarkers(st, lines[..|lines| - 1]);
      StepSection(RunFrom(st, lines[..|lines| - 1]), lines[|lines| - 1]);
    }
  }

  /** A start marker followed by lines with no marker among them: the block
      is open and holds the kept lines. */
  lemma OpenedBlock(st: ScanState, sec: Section, open: string, body: seq<string>)
    requires Strip(open) == StartMarker(sec)
    requires forall l :: l in body ==> !IsMarker(Strip(l))
    ensures RunFrom(st, [open] + body) == st.(section := Some(sec), buffer := Kept(body))
  {
    RunAppend(st, [open], body);
    RunOne(st, open);
    StartMarkerOpens(st, open, sec);
    var inBlock := st.(section := Some(sec), buffer := []);
    BlockBody(inBlock, body);
    assert [] + Kept(body) == Kept(body);
  }

  /** A whole block: a start marker, lines with no marker among them, and any
      end marker. The block's key receives the kept lines, unmodified, joined
      by newlines and stripped as a whole; marker lines are never content. */
  lemma SectionContent(st: ScanState, sec: Section, open: string, body: seq<string>, close: string)
    requires Strip(open) == StartMarker(sec)
    requires IsEndMarker(Strip(close))
    requires forall l :: l in body ==> !IsMarker(Strip(l))
    ensures RunFrom(st, [open] + body + [close])
         == st.(data := Put(st.data, SectionKey(sec), Strip(Join(Kept(body), '\n'))),
                section := None, buffer := Kept(body))
  {
    var lines := [open] + body + [close];
    assert lines[..|lines| - 1] == [open] + body;
    OpenedBlock(st, sec, open, body);
    EndMarkerCloses(st.(section := Some(sec), buffer := Kept(body)), close, sec);
  }

  /** Line `j` of a run, scanned from a state whose open block is `open`,
      is an end marker that closes the block `sec`. */
  predicate ClosesAt(open: Option<Section>, lines: seq<string>, j: nat, sec: Section)
    requires j < |lines|
  {
    IsEndMarker(Strip(lines[j])) && SectionAfter(open, lines[..j]) == Some(sec)
  }

  lemma ClosesAtPrefix(open: Option<Section>, lines: seq<string>, n: nat, j: nat, sec: Section)
    requires j < n <= |lines|
    ensures ClosesAt(open, lines[..n], j, sec) == ClosesAt(open, lines, j, sec)
  {
    assert lines[..n][..j] == lines[..j];
  }

  /** A block that is never closed stores nothing: if no end marker arrives
      while `sec` is open, its key stays absent. This covers a block that is
      abandoned for the other one, which is then closed: the end marker
      stores the other block only. */
  lemma {:induction false} UnclosedBlockStoresNothing(st: ScanState, lines: seq<string>, sec: Section)
    requires SectionKey(sec) !in Keys(st.data)
    requires forall j :: 0 <= j < |lines| ==> !ClosesAt(st.section, lines, j, sec)
    ensures SectionKey(sec) !in Keys(RunFrom(st, lines).data)
    decreases |lines|
  {
    if lines != [] {
      var n := |lines| - 1;
      var init := lines[..n];
      forall j | 0 <= j < n
        ensures !ClosesAt(st.section, init, j, sec)
      {
        ClosesAtPrefix(st.section, lines, n, j, sec);
      }
      UnclosedBlockStoresNothing(st, init, sec);
      SectionFollowsMarkers(st, init);
      assert !ClosesAt(st.section, lines, n, sec);
      StepKeepsBlockKeyAbsent(RunFrom(st, init), lines[n], sec);
    }
  }

  /** Only an end marker while `sec` is open stores `sec`'s key. */
  lemma StepKeepsBlockKeyAbsent(st: ScanState, line: string, sec: Section)
    requires SectionKey(sec) !in Keys(st.data)
    requires !(IsEndMarker(Strip(line)) && st.section == Some(sec))
    ensures SectionKey(sec) !in Keys(Step(st, line).data)
  {
    var d, key := Step(st, line).data, SectionKey(sec);
    StepData(st, line);
    if d == st.data {
    } else if IsEndMarker(Strip(line)) && st.section.Some?
              && d == Put(st.data, SectionKey(st.section.value), Strip(Join(st.buffer, '\n'))) {
      assert st.section.value != sec;
      assert SectionKey(st.section.value) != key;
      PutKeepsOtherAbsent(st.data, SectionKey(st.section.value), Strip(Join(st.buffer, '\n')), key);
    } else if IsKeyLine(st, line) && LineKey(line) == OutputTypeKey
              && d == Put(st.data, OutputTypeKey, OutputTypeText(LineValue(line))) {
      PutKeepsOtherAbsent(st.data, OutputTypeKey, OutputTypeText(LineValue(line)), key);
    } else {
      PutKeepsOtherAbsent(st.data, LineKey(line), LineValue(line), key);
    }
  }

  /** The input block opened, abandoned for the expected-output block, and an
      `# END_INPUT` line: the expected output is stored, the input is not. */
  lemma AbandonedInputBlock()
    ensures SectionKey(Input) !in Keys(RunFrom(Initial, AbandonedInputLines).data)
  {
    var lines := AbandonedInputLines;
    StripStripped(StartMarker(Input));
    StripStripped(StartMarker(ExpectedOutput));
    StripStripped(EndMarker(Input));
    forall j | 0 <= j < |lines|
      ensures !ClosesAt(Initial.section, lines, j, Input)
    {
      if j == 4 {
        assert lines[..4] == lines[..3] + [lines[3]];
        assert SectionAfter(None, lines[..3]) == Some(ExpectedOutput) by {
          assert lines[..3] == lines[..2] + [lines[2]];
        }
      }
    }
    UnclosedBlockStoresNothing(Initial, lines, Input);
  }

  const AbandonedInputLines: seq<string> :=
    [StartMarker(Input), "a", StartMarker(ExpectedOutput), "b", EndMarker(Input)]

  // ---------------------------------------------------------------------
  // `key: value` lines and the context line.

  /** Outside a block, a line that is neither a marker nor a `key: value` line
      changes nothing. */
  lemma PlainLineIgnored(st: ScanState, line: string)
    requires st.section.None?
    requires !IsMarker(Strip(line)) && !IsKeyLine(st, line)
    ensures Step(st, line) == st
  {
    StepOffMarker(st, line);
  }

  /** A line that the scan passes over when no block is open: not a marker,
      and either without a colon or a comment. */
  predicate Ignorable(line: string)
  {
    !IsMarker(Strip(line)) && (':' !in line || StartsWith(Strip(line), "#"))
  }

  /** Outside a block, a run of ignorable lines changes nothing. */
  lemma {:induction false} IgnoredLines(st: ScanState, lines: seq<string>)
    requires st.section.None?
    requires forall l :: l in lines ==> Ignorable(l)
    ensures RunFrom(st, lines) == st
    decreases |lines|
  {
    if lines != [] {
      var init, last := lines[..|lines| - 1], lines[|lines| - 1];
      assert forall l :: l in init ==> l in lines;
      IgnoredLines(st, init);
      assert last in lines;
      PlainLineIgnored(st, last);
    }
  }

  /** A `key: value` line goes through the key phase only. */
  lemma KeyLineStep(st: ScanState, line: string)
    requires IsKeyLine(st, line)
    ensures Step(st, line) == KeyValuePhase(st, line)
  {
    if IsMarker(Strip(line)) {
      MarkerStartsWithHash(Strip(line));
    }
    StepOffMarker(st, line);
  }

  /** A `key: value` line for any key but `expectedOutputType`: the first line
      for a key stores it at the end of the record; later lines for it, and
      lines keyed `context`, `input` or `expectedOutput`, store nothing. */
  lemma OrdinaryKeyLine(st: ScanState, line: string)
    requires IsKeyLine(st, line)
    requires LineKey(line) != OutputTypeKey
    ensures var key := LineKey(line);
      Step(st, line).data
        == if key in Keys(st.data) || key == ContextKey
              || key == SectionKey(Input) || key == SectionKey(ExpectedOutput)
           then st.data
           else st.data + [(key, LineValue(line))]
  {
    var key := LineKey(line);
    if IsMarker(Strip(line)) {
      MarkerStartsWithHash(Strip(line));
    }
    StepOffMarker(st, line);
    assert CollectPhase(st, line, Strip(line)) == st;
    if key !in Keys(st.data) {
      PutNew(st.data, key, LineValue(line));
    }
  }

  /** An `expectedOutputType` line stores its value cut at the first `#` and
      stripped; a later line overwrites an earlier one where it stands. */
  lemma OutputTypeLine(st: ScanState, line: string)
    requires IsKeyLine(st, line)
    requires LineKey(line) == OutputTypeKey
    ensures Get(Step(st, line).data, OutputTypeKey) == Some(OutputTypeText(LineValue(line)))
    ensures '#' !in OutputTypeText(LineValue(line))
    ensures forall k :: k != OutputTypeKey ==> Get(Step(st, line).data, k) == Get(st.data, k)
    ensures Keys(Step(st, line).data)
         == if OutputTypeKey in Keys(st.data) then Keys(st.data) else Keys(st.data) + [OutputTypeKey]
    ensures OutputTypeKey !in Keys(st.data) ==>
              Step(st, line).data == st.data + [(OutputTypeKey, OutputTypeText(LineValue(line)))]
  {
    if IsMarker(Strip(line)) {
      MarkerStartsWithHash(Strip(line));
    }
    StepOffMarker(st, line);
    assert CollectPhase(st, line, Strip(line)) == st;
    if OutputTypeKey !in Keys(st.data) {
      PutNew(st.data, OutputTypeKey, OutputTypeText(LineValue(line)));
    }
    var parts := Split(LineValue(line), '#');
    SplitPieces(LineValue(line), '#');
    StripChars(parts[0]);
  }

  /** Only a `context:` line outside a block sets the pending context text,
      to the stripped rest of that one line, and it stores nothing. */
  lemma ContextLine(st: ScanState, line: string)
    ensures Step(st, line).contextSource
         == if IsKeyLine(st, line) && LineKey(line) == ContextKey then LineValue(line) else st.contextSource
    ensures IsKeyLine(st, line) && LineKey(line) == ContextKey ==> Step(st, line).data == st.data
  {
    if IsMarker(Strip(line)) {
      StepOnMarker(st, line);
      MarkerStartsWithHash(Strip(line));
      assert !IsKeyLine(st, line);
      assert MarkerPhase(st, Strip(line)).contextSource == st.contextSource;
    } else {
      StepOffMarker(st, line);
      var c := CollectPhase(st, line, Strip(line));
      assert c.contextSource == st.contextSource;
      if st.section.Some? {
        assert !IsKeyLine(st, line);
        assert c.section.Some?;
        assert !IsKeyLine(c, line);
      } else {
        assert c == st;
      }
    }
  }

  lemma FieldLineParts(key: string, v: string)
    requires ':' !in key
    ensures ':' in key + ": " + v
    ensures Partition(key + ": " + v, ':') == (key, " " + v)
  {
    var line := key + ": " + v;
    assert line == key + [':'] + (" " + v);
    assert line[|key|] == ':';
    PartitionAt(key, ':', " " + v);
  }

  lemma FieldLineNotComment(key: string, v: string)
    requires key != [] && key[0] != '#' && !IsSpace(key[0])
    ensures !StartsWith(Strip(key + ": " + v), "#")
  {
    var line := key + ": " + v;
    assert line[0] == key[0];
    StripHead(line);
  }

  /** A `key: value` line built from a key and a value text. */
  lemma FieldLine(st: ScanState, key: string, v: string)
    requires st.section.None?
    requires key != [] && key[0] != '#' && IsStripped(key) && ':' !in key
    ensures IsKeyLine(st, key + ": " + v)
    ensures LineKey(key + ": " + v) == key
    ensures LineValue(key + ": " + v) == Strip(v)
  {
    FieldLineParts(key, v);
    FieldLineNotComment(key, v);
    StripLeadingSpace(v);
  }

  /** A key line is cut at its first colon: the key is the stripped text
      before it, which holds no colon, and the value the stripped text after
      it; the two parts and the colon make up the line. */
  lemma KeyLineSplit(line: string)
    requires ':' in line
    ensures line == Partition(line, ':').0 + [':'] + Partition(line, ':').1
    ensures ':' !in Partition(line, ':').0
    ensures LineKey(line) == Strip(Split(line, ':')[0])
    ensures LineValue(line) == Strip(Partition(line, ':').1)
  {
    PartitionSplit(line, ':');
  }

  /** A line that sets the context text when no block is open. */
  predicate IsContextLine(line: string)
  {
    ':' in line && !StartsWith(Strip(line), "#") && LineKey(line) == ContextKey
  }

  /** Line `j` of a run, scanned from a state whose open block is `sec`, sets
      the context text. */
  predicate ContextLineAt(sec: Option<Section>, lines: seq<string>, j: nat)
    requires j < |lines|
  {
    SectionAfter(sec, lines[..j]).None? && IsContextLine(lines[j])
  }

  lemma ContextLineAtPrefix(sec: Option<Section>, lines: seq<string>, n: nat, j: nat)
    requires j < n <= |lines|
    ensures ContextLineAt(sec, lines[..n], j) == ContextLineAt(sec, lines, j)
  {
    assert lines[..n][..j] == lines[..j];
  }

  /** Lines after the `k`-th that are not `context:` lines leave the context
      text as it was after the first `k` lines. */
  lemma {:induction false} NoContextLineAfter(st: ScanState, lines: seq<string>, k: nat)
    requires k <= |lines|
    requires forall j :: k <= j < |lines| ==> !ContextLineAt(st.section, lines, j)
    ensures RunFrom(st, lines).contextSource == RunFrom(st, lines[..k]).contextSource
    decreases |lines|
  {
    if k == |lines| {
      assert lines[..k] == lines;
    } else {
      var n := |lines| - 1;
      forall j | k <= j < n
        ensures !ContextLineAt(st.section, lines[..n], j)
      {
        ContextLineAtPrefix(st.section, lines, n, j);
      }
      NoContextLineAfter(st, lines[..n], k);
      assert lines[..n][..k] == lines[..k];
      LastLineKeepsContext(st, lines);
    }
  }

  /** A last line that is not a `context:` line keeps the context text. */
  lemma LastLineKeepsContext(st: ScanState, lines: seq<string>)
    requires lines != [] && !ContextLineAt(st.section, lines, |lines| - 1)
    ensures RunFrom(st, lines).contextSource == RunFrom(st, lines[..|lines| - 1]).contextSource
  {
    var n := |lines| - 1;
    SectionFollowsMarkers(st, lines[..n]);
    NotContextLineStep(RunFrom(st, lines[..n]), lines[n]);
  }

  lemma NotContextLineStep(st: ScanState, line: string)
    requires !(st.section.None? && IsContextLine(line))
    ensures Step(st, line).contextSource == st.contextSource
  {
    ContextLine(st, line);
  }

  /** A `context:` line sets the context text to its value. */
  lemma ContextLineSets(st: ScanState, lines: seq<string>, i: nat)
    requires i < |lines| && ContextLineAt(st.section, lines, i)
    ensures RunFrom(st, lines[..i + 1]).contextSource == LineValue(lines[i])
  {
    var head := lines[..i + 1];
    assert head[..i] == lines[..i];
    SectionFollowsMarkers(st, lines[..i]);
    ContextLine(RunFrom(st, lines[..i]), lines[i]);
  }

  /** The context text is the value of the last `context:` line. */
  lemma LastContextLineWins(st: ScanState, lines: seq<string>, i: nat)
    requires i < |lines| && ContextLineAt(st.section, lines, i)
    requires forall j :: i < j < |lines| ==> !ContextLineAt(st.section, lines, j)
    ensures RunFrom(st, lines).contextSource == LineValue(lines[i])
  {
    ContextLineSets(st, lines, i);
    NoContextLineAfter(st, lines, i + 1);
  }

  // ---------------------------------------------------------------------
  // Whole runs.

  /** The four things one line can do to the collected record: nothing,
      store a closed block under the open block's key, overwrite or add
      `expectedOutputType`, or add a new ordinary key at the end. */
  lemma StepData(st: ScanState, line: string)
    ensures var d := Step(st, line).data;
      || d == st.data
      || (IsEndMarker(Strip(line)) && st.section.Some?
          && d == Put(st.data, SectionKey(st.section.value), Strip(Join(st.buffer, '\n'))))
      || (IsKeyLine(st, line) && LineKey(line) == OutputTypeKey
          && d == Put(st.data, OutputTypeKey, OutputTypeText(LineValue(line))))
      || (var key := LineKey(line);
          && IsKeyLine(st, line)
          && key !in Keys(st.data) && key != OutputTypeKey && key != ContextKey
          && key != SectionKey(Input) && key != SectionKey(ExpectedOutput)
          && d == Put(st.data, key, LineValue(line)))
  {
    if IsMarker(Strip(line)) {
      StepOnMarker(st, line);
    } else {
      StepOffMarker(st, line);
      var c := CollectPhase(st, line, Strip(line));
      assert c.data == st.data && c.section == st.section;
      if IsKeyLine(c, line) {
        if LineKey(line) == OutputTypeKey {
          assert Step(st, line).data == Put(st.data, OutputTypeKey, OutputTypeText(LineValue(line)));
        }
      } else {
        assert Step(st, line) == c;
      }
    }
  }

  lemma StepKeepsFirst(st: ScanState, line: string, k: string)
    requires k in Keys(st.data)
    requires k != OutputTypeKey && k != SectionKey(Input) && k != SectionKey(ExpectedOutput)
    ensures Get(Step(st, line).data, k) == Get(st.data, k)
    ensures k in Keys(Step(st, line).data)
  {
    StepData(st, line);
  }

  /** A key other than `expectedOutputType` and the block keys keeps the value
      of its first line for the rest of the scan. */
  lemma {:induction false} FirstOccurrenceWins(st: ScanState, lines: seq<string>, k: string)
    requires k in Keys(st.data)
    requires k != OutputTypeKey && k != SectionKey(Input) && k != SectionKey(ExpectedOutput)
    ensures Get(RunFrom(st, lines).data, k) == Get(st.data, k)
    ensures k in Keys(RunFrom(st, lines).data)
    decreases |lines|
  {
    if lines != [] {
      var prev := RunFrom(st, lines[..|lines| - 1]);
      FirstOccurrenceWins(st, lines[..|lines| - 1], k);
      StepKeepsFirst(prev, lines[|lines| - 1], k);
    }
  }

  /** A line that sets `expectedOutputType` when no block is open. */
  predicate IsOutputTypeLine(line: string)
  {
    ':' in line && !StartsWith(Strip(line), "#") && LineKey(line) == OutputTypeKey
  }

  /** Line `j` of a run, scanned from a state whose open block is `sec`, sets
      the output type. */
  predicate OutputTypeLineAt(sec: Option<Section>, lines: seq<string>, j: nat)
    requires j < |lines|
  {
    SectionAfter(sec, lines[..j]).None? && IsOutputTypeLine(lines[j])
  }

  /** Any line but an `expectedOutputType` line outside a block keeps the
      output type: neither a closed block nor another key touches it. */
  lemma NotOutputTypeLineStep(st: ScanState, line: string)
    requires !(st.section.None? && IsOutputTypeLine(line))
    ensures Get(Step(st, line).data, OutputTypeKey) == Get(st.data, OutputTypeKey)
  {
    StepData(st, line);
    assert SectionKey(Input) != OutputTypeKey && SectionKey(ExpectedOutput) != OutputTypeKey;
  }

  /** Lines after the `k`-th that are not `expectedOutputType` lines leave the
      output type as it was after the first `k` lines. */
  lemma {:induction false} NoOutputTypeLineAfter(st: ScanState, lines: seq<string>, k: nat)
    requires k <= |lines|
    requires forall j :: k <= j < |lines| ==> !OutputTypeLineAt(st.section, lines, j)
    ensures Get(RunFrom(st, lines).data, OutputTypeKey) == Get(RunFrom(st, lines[..k]).data, OutputTypeKey)
    decreases |lines|
  {
    if k == |lines| {
      assert lines[..k] == lines;
    } else {
      var n := |lines| - 1;
      NoOutputTypeLineInPrefix(st.section, lines, n, k);
      NoOutputTypeLineAfter(st, lines[..n], k);
      assert lines[..n][..k] == lines[..k];
      LastLineKeepsOutputType(st, lines);
    }
  }

  lemma NoOutputTypeLineInPrefix(sec: Option<Section>, lines: seq<string>, n: nat, k: nat)
    requires k <= n <= |lines|
    requires forall j :: k <= j < |lines| ==> !OutputTypeLineAt(sec, lines, j)
    ensures forall j :: k <= j < n ==> !OutputTypeLineAt(sec, lines[..n], j)
  {
    forall j | k <= j < n
      ensures !OutputTypeLineAt(sec, lines[..n], j)
    {
      OutputTypeLineAtPrefix(sec, lines, n, j);
    }
  }

  lemma OutputTypeLineAtPrefix(sec: Option<Section>, lines: seq<string>, n: nat, j: nat)
    requires j < n <= |lines|
    ensures OutputTypeLineAt(sec, lines[..n], j) == OutputTypeLineAt(sec, lines, j)
  {
    assert lines[..n][..j] == lines[..j];
  }

  /** A last line that is not an `expectedOutputType` line keeps the output type. */
  lemma LastLineKeepsOutputType(st: ScanState, lines: seq<string>)
    requires lines != [] && !OutputTypeLineAt(st.section, lines, |lines| - 1)
    ensures Get(RunFrom(st, lines).data, OutputTypeKey) == Get(RunFrom(st, lines[..|lines| - 1]).data, OutputTypeKey)
  {
    var n := |lines| - 1;
    SectionFollowsMarkers(st, lines[..n]);
    NotOutputTypeLineStep(RunFrom(st, lines[..n]), lines[n]);
  }

  /** An `expectedOutputType` line sets the output type to its value, cut at `#`. */
  lemma OutputTypeLineSets(st: ScanState, lines: seq<string>, i: nat)
    requires i < |lines| && OutputTypeLineAt(st.section, lines, i)
    ensures Get(RunFrom(st, lines[..i + 1]).data, OutputTypeKey) == Some(OutputTypeText(LineValue(lines[i])))
  {
    var head := lines[..i + 1];
    assert head[..i] == lines[..i];
    SectionFollowsMarkers(st, lines[..i]);
    OutputTypeLine(RunFrom(st, lines[..i]), lines[i]);
  }

  /** The output type is the value of the last `expectedOutputType` line. */
  lemma LastOutputTypeLineWins(st: ScanState, lines: seq<string>, i: nat)
    requires i < |lines| && OutputTypeLineAt(st.section, lines, i)
    requires forall j :: i < j < |lines| ==> !OutputTypeLineAt(st.section, lines, j)
    ensures Get(RunFrom(st, lines).data, OutputTypeKey) == Some(OutputTypeText(LineValue(lines[i])))
  {
    OutputTypeLineSets(st, lines, i);
    NoOutputTypeLineAfter(st, lines, i + 1);
  }

  lemma StepAppendsKeys(st: ScanState, line: string)
    ensures Keys(st.data) <= Keys(Step(st, line).data)
  {
    StepData(st, line);
  }

  /** Insertion order: the keys present before a run stay, in the same order,
      at the front of the keys after it. */
  lemma {:induction false} KeysOnlyAppended(st: ScanState, lines: seq<string>)
    ensures Keys(st.data) <= Keys(RunFrom(st, lines).data)
    decreases |lines|
  {
    if lines != [] {
      var prev := RunFrom(st, lines[..|lines| - 1]);
      KeysOnlyAppended(st, lines[..|lines| - 1]);
      StepAppendsKeys(prev, lines[|lines| - 1]);
    }
  }

  /** The collected record never holds `context` and never repeats a key. */
  predicate WellFormed(st: ScanState)
  {
    ContextKey !in Keys(st.data) && UniqueKeys(st.data)
  }

  lemma PutKeepsWellFormed(d: Dict<string>, k: string, v: string)
    requires ContextKey !in Keys(d) && UniqueKeys(d)
    requires k != ContextKey
    ensures ContextKey !in Keys(Put(d, k, v)) && UniqueKeys(Put(d, k, v))
  {
  }

  lemma StepKeepsWellFormed(st: ScanState, line: string)
    requires WellFormed(st)
    ensures WellFormed(Step(st, line))
  {
    var d := Step(st, line).data;
    StepData(st, line);
    if d == st.data {
    } else if IsEndMarker(Strip(line)) && st.section.Some?
              && d == Put(st.data, SectionKey(st.section.value), Strip(Join(st.buffer, '\n'))) {
      PutKeepsWellFormed(st.data, SectionKey(st.section.value), Strip(Join(st.buffer, '\n')));
    } else if d == Put(st.data, OutputTypeKey, OutputTypeText(LineValue(line))) {
      PutKeepsWellFormed(st.data, OutputTypeKey, OutputTypeText(LineValue(line)));
    } else {
      PutKeepsWellFormed(st.data, LineKey(line), LineValue(line));
    }
  }

  lemma {:induction false} RunKeepsWellFormed(st: ScanState, lines: seq<string>)
    requires WellFormed(st)
    ensures WellFormed(RunFrom(st, lines))
    decreases |lines|
  {
    if lines != [] {
      var prev := RunFrom(st, lines[..|lines| - 1]);
      RunKeepsWellFormed(st, lines[..|lines| - 1]);
      StepKeepsWellFormed(prev, lines[|lines| - 1]);
    }
  }

  /** Parsing fails exactly when the context text does not decode; on success
      the record has no repeated key, every value is a string except the last,
      and the last entry is `context` with the decoded JSON. */
  lemma ParsedShape<J>(text: string, decode: string -> Option<J>)
    ensures var src := Scanned(text).contextSource;
      match Parsed(text, decode)
      case Failure(e) => decode(src).None? && e == ContextDecodeError(src)
      case Success(rec) =>
        && decode(src).Some?
        && UniqueKeys(rec)
        && |rec| >= 1
        && rec[|rec| - 1] == (ContextKey, Ctx(decode(src).value))
        && forall i :: 0 <= i < |rec| - 1 ==> rec[i].1.Str?
  {
    var st := Scanned(text);
    RunKeepsWellFormed(Initial, Split(text, '\n'));
    match decode(st.contextSource)
    case None =>
    case Some(j) =>
      var body: Record<J> := AsRecord(st.data);
      AsRecordStrings<J>(st.data);
      PutNew(body, ContextKey, Ctx(j));
  }

  /** Every value of the collected record is a string. */
  lemma AsRecordStrings<J>(d: Dict<string>)
    ensures forall i :: 0 <= i < |AsRecord<J>(d)| ==> AsRecord<J>(d)[i].1.Str?
  {
  }


  /** With no `context:` line at all, the context text is `{}`. */
  lemma DefaultContext(text: string)
    requires forall j :: 0 <= j < |Split(text, '\n')| ==> !ContextLineAt(None, Split(text, '\n'), j)
    ensures Scanned(text).contextSource == "{}"
  {
    NoContextLineAfter(Initial, Split(text, '\n'), 0);
  }
}

=== FILE: pystr.dfy ===
/** The Python `str` operations the editor format is built from: `strip`,
    `startswith`, `endswith`, `split`, `split(sep, 1)`, `join`, `lower` and a
    one-character `replace`. Strings are sequences of Unicode scalar values. */
module PyStr {

  /** The characters for which Python's `str.isspace()` holds; `str.strip()`
      with no argument removes exactly these from both ends. */
  predicate IsSpace(c: char)
  {
    || ('\t' <= c <= '\r')                  // tab, line feed, vertical tab, form feed, carriage return
    || ('\U{1C}' <= c <= '\U{1F}')          // file, group, record and unit separators
    || c == ' '
    || c == '\U{85}' || c == '\U{A0}' || c == '\U{1680}'
    || ('\U{2000}' <= c <= '\U{200A}')
    || c == '\U{2028}' || c == '\U{2029}' || c == '\U{202F}' || c == '\U{205F}' || c == '\U{3000}'
  }

  /** Neither end of `s` is whitespace. */
  predicate IsStripped(s: string)
  {
    s == [] || (!IsSpace(s[0]) && !IsSpace(s[|s| - 1]))
  }

  /** `s.lstrip()` */
  function LStrip(s: string): string
  {
    if s != [] && IsSpace(s[0]) then LStrip(s[1..]) else s
  }

  /** `s.rstrip()` */
  function RStrip(s: string): string
  {
    if s != [] && IsSpace(s[|s| - 1]) then RStrip(s[..|s| - 1]) else s
  }

  /** `s.strip()`. Its properties are the lemmas below, called where needed,
      so that the many `strip` calls of the scan stay cheap to unfold. */
  function Strip(s: string): string
  {
    RStrip(LStrip(s))
  }

  /** `s.startswith(prefix)` */
  predicate StartsWith(s: string, prefix: string)
  {
    |prefix| <= |s| && s[..|prefix|] == prefix
  }

  /** `s.endswith(suffix)` */
  predicate EndsWith(s: string, suffix: string)
  {
    |suffix| <= |s| && s[|s| - |suffix|..] == suffix
  }

  /** `s.split(sep)` for a one-character separator: the pieces between the
      separators, always at least one. */
  function Split(s: string, sep: char): (parts: seq<string>)
    ensures |parts| >= 1
    decreases |s|
  {
    if s == [] then [""]
    else
      var rest := Split(s[1..], sep);
      if s[0] == sep then [""] + rest
      else [[s[0]] + rest[0]] + rest[1..]
  }

  /** `sep.join(parts)` */
  function Join(parts: seq<string>, sep: char): string
  {
    if |parts| == 0 then ""
    else if |parts| == 1 then parts[0]
    else parts[0] + [sep] + Join(parts[1..], sep)
  }

  /** `s.split(sep, 1)` read as a pair: the text before the first separator and
      the text after it. */
  function Partition(s: string, sep: char): (r: (string, string))
    decreases |s|
  {
    if s == [] then ("", "")
    else if s[0] == sep then ("", s[1..])
    else
      var (before, after) := Partition(s[1..], sep);
      ([s[0]] + before, after)
  }

  predicate IsAsciiUpper(c: char)
  {
    'A' <= c <= 'Z'
  }

  /** `str.lower()` on one character, for the ASCII letters only. */
  function LowerChar(c: char): (r: char)
    ensures !IsAsciiUpper(r)
    ensures IsAsciiUpper(c) ==> r as int == c as int + 32
    ensures !IsAsciiUpper(c) ==> r == c
  {
    if IsAsciiUpper(c) then (c as int + 32) as char else c
  }

  /** `s.lower()`, for the ASCII letters only. */
  function Lower(s: string): (r: string)
    ensures |r| == |s|
    ensures forall i :: 0 <= i < |r| ==> r[i] == LowerChar(s[i])
  {
    if s == [] then [] else [LowerChar(s[0])] + Lower(s[1..])
  }

  /** `s.replace(from, to)` for one-character `from` and `to`. */
  function Replace(s: string, from: char, to: char): (r: string)
    ensures |r| == |s|
    ensures from != to ==> from !in r
    ensures forall i :: 0 <= i < |s| ==> r[i] == (if s[i] == from then to else s[i])
  {
    if s == [] then [] else [if s[0] == from then to else s[0]] + Replace(s[1..], from, to)
  }

  // ---------------------------------------------------------------------
  // Properties of splitting and joining.

  /** Joining the pieces of a split gives back the original string. */
  lemma {:induction false} JoinSplit(s: string, sep: char)
    ensures Join(Split(s, sep), sep) == s
    decreases |s|
  {
    if s != [] {
      JoinSplit(s[1..], sep);
      var rest := Split(s[1..], sep);
      if s[0] != sep && |rest| > 1 {
        assert Join(rest, sep) == rest[0] + [sep] + Join(rest[1..], sep);
        assert Split(s, sep)[1..] == rest[1..];
      }
    }
  }

  /** No piece of a split holds the separator. */
  lemma {:induction false} SplitPieces(s: string, sep: char)
    ensures forall i :: 0 <= i < |Split(s, sep)| ==> sep !in Split(s, sep)[i]
    decreases |s|
  {
    if s != [] {
      SplitPieces(s[1..], sep);
      var rest := Split(s[1..], sep);
      if s[0] != sep {
        assert sep !in [s[0]] + rest[0];
      }
    }
  }

  /** `split(sep, 1)` agrees with `split(sep)` on the first piece, and puts the
      string back together around the first separator. */
  lemma {:induction false} PartitionSplit(s: string, sep: char)
    ensures Partition(s, sep).0 == Split(s, sep)[0]
    ensures sep !in Partition(s, sep).0
    ensures sep in s ==> s == Partition(s, sep).0 + [sep] + Partition(s, sep).1
    decreases |s|
  {
    if s != [] && s[0] != sep {
      PartitionSplit(s[1..], sep);
      assert s == [s[0]] + s[1..];
    }
  }

  /** Splitting a string that contains no separator gives the string itself. */
  lemma {:induction false} SplitNoSeparator(s: string, sep: char)
    requires sep !in s
    ensures Split(s, sep) == [s]
    decreases |s|
  {
    if s != [] {
      SplitNoSeparator(s[1..], sep);
      assert [s[0]] + s[1..] == s;
    }
  }

  /** A separator in the middle splits the pieces of both sides apart. */
  lemma {:induction false} SplitAround(a: string, sep: char, b: string)
    ensures Split(a + [sep] + b, sep) == Split(a, sep) + Split(b, sep)
    decreases |a|
  {
    var s := a + [sep] + b;
    if a == [] {
      assert s[1..] == b;
    } else {
      assert s[1..] == a[1..] + [sep] + b;
      SplitAround(a[1..], sep, b);
    }
  }

  /** The first piece of `a + b` when `a` has no separator. */
  lemma {:induction false} SplitHead(a: string, b: string, sep: char)
    requires sep !in a
    ensures Split(a + b, sep)[0] == a + Split(b, sep)[0]
    decreases |a|
  {
    if a == [] {
      assert a + b == b;
    } else {
      assert (a + b)[1..] == a[1..] + b;
      SplitHead(a[1..], b, sep);
      assert [a[0]] + (a[1..] + Split(b, sep)[0]) == a + Split(b, sep)[0];
    }
  }

  /** Join of two non-empty lists of pieces. */
  lemma {:induction false} JoinAppend(a: seq<string>, b: seq<string>, sep: char)
    requires |a| >= 1 && |b| >= 1
    ensures Join(a + b, sep) == Join(a, sep) + [sep] + Join(b, sep)
    decreases |a|
  {
    if |a| > 1 {
      assert (a + b)[1..] == a[1..] + b;
      JoinAppend(a[1..], b, sep);
    }
  }

  /** Splitting a join gives back the pieces, when no piece holds the separator. */
  lemma {:induction false} SplitJoin(parts: seq<string>, sep: char)
    requires |parts| >= 1
    requires forall i :: 0 <= i < |parts| ==> sep !in parts[i]
    ensures Split(Join(parts, sep), sep) == parts
    decreases |parts|
  {
    if |parts| == 1 {
      SplitNoSeparator(parts[0], sep);
    } else {
      SplitJoin(parts[1..], sep);
      SplitNoSeparator(parts[0], sep);
      SplitAround(parts[0], sep, Join(parts[1..], sep));
    }
  }

  /** Splitting a join whose leading pieces hold no separator gives those
      pieces back, followed by the split of the rest. */
  lemma SplitJoinPrefix(a: seq<string>, b: seq<string>, sep: char)
    requires |a| >= 1 && |b| >= 1
    requires forall i :: 0 <= i < |a| ==> sep !in a[i]
    ensures Split(Join(a + b, sep), sep) == a + Split(Join(b, sep), sep)
  {
    JoinAppend(a, b, sep);
    SplitAround(Join(a, sep), sep, Join(b, sep));
    SplitJoin(a, sep);
  }

  /** Splitting a join that starts with a piece `x` splits `x` itself. */
  lemma SplitJoinCons(x: string, b: seq<string>, sep: char)
    requires |b| >= 1
    ensures Split(Join([x] + b, sep), sep) == Split(x, sep) + Split(Join(b, sep), sep)
  {
    JoinAppend([x], b, sep);
    SplitAround(x, sep, Join(b, sep));
  }

  // ---------------------------------------------------------------------
  // Properties of stripping.

  /** Left-stripping removes a whitespace prefix and only that. */
  lemma {:induction false} LStripSuffix(s: string)
    ensures |LStrip(s)| <= |s| && LStrip(s) == s[|s| - |LStrip(s)|..]
    ensures LStrip(s) == [] || !IsSpace(LStrip(s)[0])
    ensures forall i :: 0 <= i < |s| - |LStrip(s)| ==> IsSpace(s[i])
    decreases |s|
  {
    if s != [] && IsSpace(s[0]) {
      LStripSuffix(s[1..]);
    }
  }

  /** Right-stripping removes a whitespace suffix and only that. */
  lemma {:induction false} RStripPrefix(s: string)
    ensures |RStrip(s)| <= |s| && RStrip(s) == s[..|RStrip(s)|]
    ensures RStrip(s) == [] || !IsSpace(RStrip(s)[|RStrip(s)| - 1])
    ensures forall i :: |RStrip(s)| <= i < |s| ==> IsSpace(s[i])
    decreases |s|
  {
    if s != [] && IsSpace(s[|s| - 1]) {
      RStripPrefix(s[..|s| - 1]);
    }
  }

  /** `strip` leaves no whitespace at either end and keeps a middle part of `s`. */
  lemma StripSlice(s: string)
    ensures IsStripped(Strip(s))
    ensures exists a, b :: 0 <= a <= b <= |s| && Strip(s) == s[a..b]
  {
    StripIsStripped(s);
    StripIsSlice(s);
  }

  lemma StripIsStripped(s: string)
    ensures IsStripped(Strip(s))
  {
    var l := LStrip(s);
    LStripSuffix(s);
    RStripPrefix(l);
    if l != [] {
      RStripHead(l);
    }
  }

  lemma StripIsSlice(s: string)
    ensures exists a, b :: 0 <= a <= b <= |s| && Strip(s) == s[a..b]
  {
    var l := LStrip(s);
    LStripSuffix(s);
    RStripPrefix(l);
    var a, n := |s| - |l|, |RStrip(l)|;
    SliceOfSlice(s, a, n);
    assert Strip(s) == s[a..a + n];
  }

  lemma SliceOfSlice<T>(s: seq<T>, a: nat, n: nat)
    requires a + n <= |s|
    ensures s[a..][..n] == s[a..a + n]
  {
  }

  /** `strip` keeps only characters of `s`. */
  lemma StripChars(s: string)
    ensures forall c :: c in Strip(s) ==> c in s
  {
    StripSlice(s);
    var a, b :| 0 <= a <= b <= |s| && Strip(s) == s[a..b];
    assert forall i :: 0 <= i < b - a ==> s[a..b][i] == s[a + i];
  }

  /** A string with no whitespace at its ends is its own `strip`. */
  lemma StripStripped(s: string)
    requires IsStripped(s)
    ensures Strip(s) == s
  {
  }

  /** A trailing space is stripped away. */
  lemma StripTrailingSpace(s: string)
    requires IsStripped(s)
    ensures Strip(s + " ") == s
  {
    if s == [] {
      assert LStrip(" ") == LStrip(" "[1..]);
    } else {
      assert LStrip(s + " ") == s + " ";
      assert (s + " ")[..|s|] == s;
      assert RStrip(s + " ") == RStrip(s) == s;
    }
  }

  /** Right-stripping keeps a first character that is not whitespace. */
  lemma {:induction false} RStripHead(s: string)
    requires s != [] && !IsSpace(s[0])
    ensures RStrip(s) != [] && RStrip(s)[0] == s[0]
    decreases |s|
  {
    if IsSpace(s[|s| - 1]) {
      RStripHead(s[..|s| - 1]);
    }
  }

  /** Stripping keeps a first character that is not whitespace. */
  lemma StripHead(s: string)
    requires s != [] && !IsSpace(s[0])
    ensures Strip(s) != [] && Strip(s)[0] == s[0]
  {
    assert LStrip(s) == s;
    RStripHead(s);
  }

  /** `split(sep, 1)` at the first separator. */
  lemma {:induction false} PartitionAt(a: string, sep: char, b: string)
    requires sep !in a
    ensures Partition(a + [sep] + b, sep) == (a, b)
    decreases |a|
  {
    var s := a + [sep] + b;
    if a == [] {
      assert s[0] == sep && s[1..] == b;
    } else {
      assert s[0] == a[0] != sep;
      assert s[1..] == a[1..] + [sep] + b;
      PartitionAt(a[1..], sep, b);
      assert [a[0]] + a[1..] == a;
    }
  }

  /** A leading space does not change the stripped text. */
  lemma StripLeadingSpace(s: string)
    ensures Strip(" " + s) == Strip(s)
  {
    assert (" " + s)[1..] == s;
  }
}

=== FILE: round_trip.dfy ===
/** Parsing a generated template gives back the values written into it, as
    long as every value is stripped, the one-line values hold no newline, the
    output type holds no `#`, no line of a block is a comment, and the context
    text is a single line. The context text is then decoded exactly as the
    parser decodes it: the round trip succeeds or fails with it. */
module TemplateRoundTrip {
  import opened Wrappers
  import opened PyStr
  import opened OrderedDict
  import opened EditorParser
  import opened ParserProperties
  import opened EditorTemplate

  // ---------------------------------------------------------------------
  // The lines of a template.

  function NameLine(name: string): string { "name: " + name }
  function TypeLine(t: string): string { "expectedOutputType: " + t + TypeHint }
  function ContextLineText(context: string): string { "context: " + context }

  /** Everything before the input block. */
  function Preamble(name: string): seq<string>
  {
    Intro + [NameLine(name)] + InputHelp
  }

  /** Everything between the expected-output block and the context line. */
  function Lead(t: string, contextHelp: seq<string>): seq<string>
  {
    ["", TypeLine(t)] + ContextHeading + contextHelp
  }

  /** The block of `sec` as the parser sees it. */
  function BlockLines(sec: Section, text: string): seq<string>
  {
    [StartMarker(sec)] + Split(text, '\n') + [EndMarker(sec)]
  }

  /** The context line as the parser sees it (the context text may span
      several lines), and the empty text after the final newline. */
  function ContextLines(context: string): seq<string>
  {
    Split(ContextLineText(context), '\n') + [""]
  }

  /** The lines the parser sees: the split of the rendered template. */
  function TemplateLines(name: string, input: string, expected: string, t: string,
                         contextHelp: seq<string>, context: string): seq<string>
  {
    Preamble(name) + BlockLines(Input, input) + OutputHelp + BlockLines(ExpectedOutput, expected)
    + Lead(t, contextHelp) + ContextLines(context)
  }

  predicate OneLine(s: string) { '\n' !in s }

  predicate AllOneLine(ls: seq<string>) { forall i :: 0 <= i < |ls| ==> '\n' !in ls[i] }

  /** A block text that survives the round trip: stripped, and no line of it
      is a comment once stripped. */
  predicate BlockText(s: string)
  {
    IsStripped(s) && forall l :: l in Split(s, '\n') ==> !StartsWith(Strip(l), "#")
  }

  /** An output type that survives the round trip. */
  predicate TypeText(t: string)
  {
    IsStripped(t) && OneLine(t) && '#' !in t
  }

  /** A context help comment that the scan passes over. */
  predicate HelpLines(help: seq<string>)
  {
    AllOneLine(help) && forall l :: l in help ==> Ignorable(l)
  }

  lemma EditNoteOneLine() ensures OneLine(EditNote)
  {
    assert OneLine("# Edit the test details");
    assert OneLine(" below. Lines starting");
    assert OneLine(" with # will be ignored.");
  }

  lemma SaveNoteOneLine() ensures OneLine(SaveNote)
  {
    assert OneLine("# Save and close the editor");
    assert OneLine(" when done.");
  }

  lemma InputNoteOneLine() ensures OneLine(InputNote)
  {
    assert OneLine("# For input expression,");
    assert OneLine(" write it between the START");
    assert OneLine(" and END markers below");
  }

  lemma MultiLineNoteOneLine() ensures OneLine(MultiLineNote)
  {
    assert OneLine("# You can use multiple lines");
    assert OneLine(" for complex TokenScript");
    assert OneLine(" expressions");
  }

  lemma OutputNoteOneLine() ensures OneLine(OutputNote)
  {
    assert OneLine("# For expected output,");
    assert OneLine(" write it between the START");
    assert OneLine(" and END markers below");
  }

  lemma ContextNoteOneLine() ensures OneLine(ContextNote)
  {
    assert OneLine("# Context (variables) section");
    assert OneLine(" - use JSON format");
  }

  lemma FixedLinesOneLine()
    ensures AllOneLine(Intro) && AllOneLine(InputHelp) && AllOneLine(OutputHelp) && AllOneLine(ContextHeading)
    ensures OneLine(StartMarker(Input)) && OneLine(EndMarker(Input))
    ensures OneLine(StartMarker(ExpectedOutput)) && OneLine(EndMarker(ExpectedOutput))
    ensures OneLine("name: ") && OneLine("expectedOutputType: ") && OneLine(TypeHint) && OneLine("context: ")
  {
    EditNoteOneLine();
    SaveNoteOneLine();
    InputNoteOneLine();
    MultiLineNoteOneLine();
    OutputNoteOneLine();
    ContextNoteOneLine();
    assert OneLine("# or String,") && OneLine(" Boolean, etc.");
  }

  // The template cut at its two block texts and its context line.
  function Head(name: string): seq<string> { Preamble(name) + [StartMarker(Input)] }
  function Middle(): seq<string> { [EndMarker(Input)] + OutputHelp + [StartMarker(ExpectedOutput)] }
  function Tail(t: string, contextHelp: seq<string>): seq<string>
  {
    [EndMarker(ExpectedOutput)] + Lead(t, contextHelp)
  }

  lemma Regroup<T>(a: seq<T>, x: seq<T>, b: seq<T>, y: seq<T>, c: seq<T>, z: seq<T>)
    ensures a + x + b + y + c + z == a + (x + (b + (y + (c + z))))
  {
  }

  lemma LayoutCut(name: string, input: string, expected: string, t: string,
                  contextHelp: seq<string>, context: string)
    ensures Layout(name, input, expected, t, contextHelp, context)
         == Head(name) + ([input] + (Middle() + ([expected] + (Tail(t, contextHelp) + [ContextLineText(context), ""]))))
  {
    var last := [ContextLineText(context), ""];
    calc {
      Layout(name, input, expected, t, contextHelp, context);
      Preamble(name) + Block(Input, input) + OutputHelp + Block(ExpectedOutput, expected) + Lead(t, contextHelp) + last;
      Head(name) + [input] + Middle() + [expected] + Tail(t, contextHelp) + last;
      { Regroup(Head(name), [input], Middle(), [expected], Tail(t, contextHelp), last); }
      Head(name) + ([input] + (Middle() + ([expected] + (Tail(t, contextHelp) + last))));
    }
  }

  lemma RegroupLines<T>(p: seq<T>, s1: T, x: seq<T>, e1: T, h: seq<T>, s2: T, y: seq<T>, e2: T,
                        l: seq<T>, c: seq<T>)
    ensures p + ([s1] + x + [e1]) + h + ([s2] + y + [e2]) + l + c
         == (p + [s1]) + (x + (([e1] + h + [s2]) + (y + (([e2] + l) + c))))
  {
  }

  lemma LinesCut(name: string, input: string, expected: string, t: string,
                 contextHelp: seq<string>, context: string)
    ensures TemplateLines(name, input, expected, t, contextHelp, context)
         == Head(name) + (Split(input, '\n') + (Middle() + (Split(expected, '\n')
            + (Tail(t, contextHelp) + ContextLines(context)))))
  {
    RegroupLines(Preamble(name), StartMarker(Input), Split(input, '\n'), EndMarker(Input), OutputHelp,
                 StartMarker(ExpectedOutput), Split(expected, '\n'), EndMarker(ExpectedOutput),
                 Lead(t, contextHelp), ContextLines(context));
  }

  lemma CutsOneLine(name: string, t: string, contextHelp: seq<string>)
    requires OneLine(name) && OneLine(t) && AllOneLine(contextHelp)
    ensures AllOneLine(Head(name)) && AllOneLine(Middle()) && AllOneLine(Tail(t, contextHelp))
  {
    FixedLinesOneLine();
    assert OneLine(NameLine(name)) && OneLine(TypeLine(t));
  }

  /** The last line of the template, and the empty text after its newline. */
  lemma SplitLastLine(c: string)
    ensures Split(Join([c, ""], '\n'), '\n') == Split(c, '\n') + [""]
  {
    assert Join([c, ""], '\n') == c + ['\n'] + "";
    SplitAround(c, '\n', "");
    SplitNoSeparator("", '\n');
  }

  /** The rendered template splits into the template lines. */
  lemma SplitTemplate(name: string, input: string, expected: string, t: string,
                      contextHelp: seq<string>, context: string)
    requires OneLine(name) && OneLine(t) && AllOneLine(contextHelp)
    ensures Split(Render(Layout(name, input, expected, t, contextHelp, context)), '\n')
         == TemplateLines(name, input, expected, t, contextHelp, context)
  {
    LayoutCut(name, input, expected, t, contextHelp, context);
    LinesCut(name, input, expected, t, contextHelp, context);
    CutsOneLine(name, t, contextHelp);
    var pre, mid, post := Head(name), Middle(), Tail(t, contextHelp);
    var last := [ContextLineText(context), ""];
    SplitJoinPrefix(pre, [input] + (mid + ([expected] + (post + last))), '\n');
    SplitJoinCons(input, mid + ([expected] + (post + last)), '\n');
    SplitJoinPrefix(mid, [expected] + (post + last), '\n');
    SplitJoinCons(expected, post + last, '\n');
    SplitJoinPrefix(post, last, '\n');
    SplitLastLine(ContextLineText(context));
  }

  // ---------------------------------------------------------------------
  // The scan of a template, part by part.

  /** A comment line outside a block is passed over, when it cannot be a
      marker: every marker is 11 to 23 characters long and has a letter in
      third position. */
  lemma CommentIgnorable(s: string)
    requires |s| >= 1 && s[0] == '#' && !IsSpace(s[|s| - 1])
    requires |s| > 23 || |s| < 11 || s[2] == ' '
    ensures Ignorable(s)
  {
    StripStripped(s);
  }

  lemma IntroIgnorable()
    ensures forall l :: l in Intro ==> Ignorable(l)
  {
    CommentIgnorable(EditNote);
    CommentIgnorable(SaveNote);
    assert Strip("") == "";
  }

  lemma InputHelpIgnorable()
    ensures forall l :: l in InputHelp ==> Ignorable(l)
  {
    CommentIgnorable(InputNote);
    CommentIgnorable(MultiLineNote);
    assert Strip("") == "";
  }

  lemma OutputHelpIgnorable()
    ensures forall l :: l in OutputHelp ==> Ignorable(l)
    ensures forall l :: l in ContextHeading ==> Ignorable(l)
    ensures Ignorable("")
  {
    CommentIgnorable(OutputNote);
    CommentIgnorable(ContextNote);
    assert Strip("") == "";
  }

  /** The keys the template writes: none is empty, a comment, padded or
      holds a colon, and each line starts with its key and ": ". */
  lemma TemplateKeys()
    ensures "name" != [] && "name"[0] != '#' && IsStripped("name") && ':' !in "name"
    ensures OutputTypeKey != [] && OutputTypeKey[0] != '#' && IsStripped(OutputTypeKey) && ':' !in OutputTypeKey
    ensures ContextKey != [] && ContextKey[0] != '#' && IsStripped(ContextKey) && ':' !in ContextKey
    ensures "name: " == "name" + ": "
    ensures "expectedOutputType: " == OutputTypeKey + ": "
    ensures "context: " == ContextKey + ": "
  {
  }

  /** The `name:` line stores the name. */
  lemma NameLineStep(st: ScanState, name: string)
    requires st.section.None? && "name" !in Keys(st.data)
    requires IsStripped(name) && OneLine(name)
    ensures Step(st, NameLine(name)) == st.(data := st.data + [("name", name)])
  {
    TemplateKeys();
    assert NameLine(name) == "name" + ": " + name;
    FieldLine(st, "name", name);
    StripStripped(name);
    KeyLineStep(st, NameLine(name));
    PutNew(st.data, "name", name);
  }

  /** The output-type line stores the type, its hint cut off. */
  lemma TypeLineStep(st: ScanState, t: string)
    requires st.section.None? && OutputTypeKey !in Keys(st.data)
    requires TypeText(t)
    ensures Step(st, TypeLine(t)) == st.(data := st.data + [(OutputTypeKey, t)])
  {
    TemplateKeys();
    assert TypeLine(t) == OutputTypeKey + ": " + (t + TypeHint);
    FieldLine(st, OutputTypeKey, t + TypeHint);
    TypeHintCut(t);
    KeyLineStep(st, TypeLine(t));
    PutNew(st.data, OutputTypeKey, t);
  }

  lemma HintCommentFacts()
    ensures HintComment != [] && HintComment[0] == '#' && IsStripped(HintComment)
    ensures Split(HintComment, '#')[0] == []
  {
    var rest := HintComment[1..];
    assert HintComment == [] + ['#'] + rest;
    SplitAround([], '#', rest);
    SplitNoSeparator([], '#');
  }

  /** The hint after the output type is cut off at its `#`. */
  lemma TypeHintCut(t: string)
    requires TypeText(t)
    ensures OutputTypeText(Strip(t + TypeHint)) == t
  {
    HintCommentFacts();
    if t == [] {
      assert t + TypeHint == " " + HintComment;
      StripLeadingSpace(HintComment);
      StripStripped(HintComment);
    } else {
      var spaced := t + " ";
      assert t + TypeHint == spaced + HintComment;
      assert IsStripped(spaced + HintComment);
      StripStripped(spaced + HintComment);
      SplitHead(spaced, HintComment, '#');
      assert Split(spaced + HintComment, '#')[0] == spaced;
      StripTrailingSpace(t);
    }
  }

  /** The `context:` line sets the context text. */
  lemma ContextLineStep(st: ScanState, context: string)
    requires st.section.None?
    ensures Step(st, ContextLineText(context)) == st.(contextSource := Strip(context))
  {
    TemplateKeys();
    assert ContextLineText(context) == ContextKey + ": " + context;
    FieldLine(st, ContextKey, context);
    ContextLine(st, ContextLineText(context));
    KeyLineStep(st, ContextLineText(context));
  }

  /** A block of lines none of which is a comment keeps all of them. */
  lemma {:induction false} KeptAll(lines: seq<string>)
    requires forall l :: l in lines ==> !StartsWith(Strip(l), "#")
    ensures Kept(lines) == lines
    decreases |lines|
  {
    if lines != [] {
      var init := lines[..|lines| - 1];
      assert forall l :: l in init ==> l in lines;
      KeptAll(init);
      assert lines[|lines| - 1] in lines;
      assert init + [lines[|lines| - 1]] == lines;
    }
  }

  /** A block written by the template stores its text unchanged, at the end. */
  lemma BlockStep(st: ScanState, sec: Section, text: string)
    requires st.section.None? && SectionKey(sec) !in Keys(st.data)
    requires BlockText(text)
    ensures RunFrom(st, [StartMarker(sec)] + Split(text, '\n') + [EndMarker(sec)])
         == st.(data := st.data + [(SectionKey(sec), text)], buffer := Split(text, '\n'))
  {
    var body := Split(text, '\n');
    forall l | l in body
      ensures !IsMarker(Strip(l))
    {
      if IsMarker(Strip(l)) {
        MarkerStartsWithHash(Strip(l));
      }
    }
    assert Strip(StartMarker(sec)) == StartMarker(sec);
    assert Strip(EndMarker(sec)) == EndMarker(sec);
    SectionContent(st, sec, StartMarker(sec), body, EndMarker(sec));
    KeptAll(body);
    JoinSplit(text, '\n');
    StripStripped(text);
    PutNew(st.data, SectionKey(sec), text);
  }

  /** The state after the preamble. */
  function AfterPreamble(name: string): ScanState
  {
    Initial.(data := [("name", name)])
  }

  lemma ScanNameLine(name: string)
    requires IsStripped(name) && OneLine(name)
    ensures RunFrom(Initial, Intro + [NameLine(name)]) == AfterPreamble(name)
  {
    IntroIgnorable();
    RunAppend(Initial, Intro, [NameLine(name)]);
    IgnoredLines(Initial, Intro);
    RunOne(Initial, NameLine(name));
    NameLineStep(Initial, name);
  }

  lemma ScanPreamble(name: string)
    requires IsStripped(name) && OneLine(name)
    ensures RunFrom(Initial, Preamble(name)) == AfterPreamble(name)
  {
    InputHelpIgnorable();
    RunAppend(Initial, Intro + [NameLine(name)], InputHelp);
    ScanNameLine(name);
    IgnoredLines(AfterPreamble(name), InputHelp);
  }

  /** The lines between the expected-output block and the context line store
      the output type, from a state with no block open and no output type yet. */
  lemma ScanLead(st: ScanState, t: string, help: seq<string>)
    requires st.section.None? && OutputTypeKey !in Keys(st.data)
    requires TypeText(t) && HelpLines(help)
    ensures RunFrom(st, Lead(t, help)) == st.(data := st.data + [(OutputTypeKey, t)])
  {
    OutputHelpIgnorable();
    var typed := st.(data := st.data + [(OutputTypeKey, t)]);
    var comments := ContextHeading + help;
    assert forall l :: l in comments ==> Ignorable(l);
    assert Lead(t, help) == ["", TypeLine(t)] + comments;
    RunAppend(st, ["", TypeLine(t)], comments);
    ScanTypeLine(st, t);
    IgnoredLines(typed, comments);
  }

  /** A one-line context text: its line sets the context and the final empty
      line changes nothing. */
  lemma ScanContextLine(st: ScanState, context: string)
    requires st.section.None? && OneLine(context)
    ensures RunFrom(st, ContextLines(context)) == st.(contextSource := Strip(context))
  {
    FixedLinesOneLine();
    SplitNoSeparator(ContextLineText(context), '\n');
    var done := st.(contextSource := Strip(context));
    RunAppend(st, [ContextLineText(context)], [""]);
    RunOne(st, ContextLineText(context));
    ContextLineStep(st, context);
    OutputHelpIgnorable();
    RunOne(done, "");
    PlainLineIgnored(done, "");
  }

  lemma ScanTypeLine(st: ScanState, t: string)
    requires st.section.None? && OutputTypeKey !in Keys(st.data)
    requires TypeText(t)
    ensures RunFrom(st, ["", TypeLine(t)]) == st.(data := st.data + [(OutputTypeKey, t)])
  {
    OutputHelpIgnorable();
    RunAppend(st, [""], [TypeLine(t)]);
    RunOne(st, "");
    PlainLineIgnored(st, "");
    RunOne(st, TypeLine(t));
    TypeLineStep(st, t);
  }

  // ---------------------------------------------------------------------
  // The whole template.

  /** The string fields of a template, in the order the scan stores them. */
  function Fields(name: string, input: string, expected: string, t: string): Dict<string>
  {
    [("name", name), ("input", input), ("expectedOutput", expected), (OutputTypeKey, t)]
  }

  /** The requirements on the values written into a template. */
  predicate Writable(name: string, input: string, expected: string, t: string, contextHelp: seq<string>)
  {
    IsStripped(name) && OneLine(name) && BlockText(input) && BlockText(expected)
    && TypeText(t) && HelpLines(contextHelp)
  }

  /** The state after the input block. */
  function AfterInput(name: string, input: string): ScanState
  {
    Initial.(data := [("name", name), ("input", input)], buffer := Split(input, '\n'))
  }

  lemma ScanInput(name: string, input: string)
    requires IsStripped(name) && OneLine(name) && BlockText(input)
    ensures RunFrom(Initial, Preamble(name) + BlockLines(Input, input)) == AfterInput(name, input)
  {
    RunAppend(Initial, Preamble(name), BlockLines(Input, input));
    ScanPreamble(name);
    BlockStep(AfterPreamble(name), Input, input);
  }

  /** The state after the expected-output block. */
  function AfterBlocks(name: string, input: string, expected: string): ScanState
  {
    Initial.(data := [("name", name), ("input", input), ("expectedOutput", expected)],
             buffer := Split(expected, '\n'))
  }

  /** Two runs scanned one after the other. */
  lemma RunPair(st: ScanState, a: seq<string>, b: seq<string>, s1: ScanState, s2: ScanState)
    requires RunFrom(st, a) == s1 && RunFrom(s1, b) == s2
    ensures RunFrom(st, a + b) == s2
  {
    RunAppend(st, a, b);
  }

  /** Three runs scanned one after the other. */
  lemma RunChain(st: ScanState, a: seq<string>, b: seq<string>, c: seq<string>,
                 s1: ScanState, s2: ScanState, s3: ScanState)
    requires RunFrom(st, a) == s1 && RunFrom(s1, b) == s2 && RunFrom(s2, c) == s3
    ensures RunFrom(st, a + b + c) == s3
  {
    RunAppend(st, a + b, c);
    RunAppend(st, a, b);
  }

  lemma ScanBlocks(name: string, input: string, expected: string)
    requires IsStripped(name) && OneLine(name) && BlockText(input) && BlockText(expected)
    ensures RunFrom(Initial, Preamble(name) + BlockLines(Input, input) + OutputHelp + BlockLines(ExpectedOutput, expected))
         == AfterBlocks(name, input, expected)
  {
    var s2 := AfterInput(name, input);
    ScanInput(name, input);
    ScanOutputHelp(s2);
    ScanExpected(name, input, expected);
    RunChain(Initial, Preamble(name) + BlockLines(Input, input), OutputHelp, BlockLines(ExpectedOutput, expected),
             s2, s2, AfterBlocks(name, input, expected));
  }

  lemma ScanOutputHelp(st: ScanState)
    requires st.section.None?
    ensures RunFrom(st, OutputHelp) == st
  {
    OutputHelpIgnorable();
    IgnoredLines(st, OutputHelp);
  }

  /** The expected-output block, read after the input block. */
  lemma ScanExpected(name: string, input: string, expected: string)
    requires BlockText(expected)
    ensures RunFrom(AfterInput(name, input), BlockLines(ExpectedOutput, expected)) == AfterBlocks(name, input, expected)
  {
    var s2 := AfterInput(name, input);
    assert Keys(s2.data) == ["name", "input"];
    BlockStep(s2, ExpectedOutput, expected);
    assert s2.data + [("expectedOutput", expected)] == [("name", name), ("input", input), ("expectedOutput", expected)];
  }

  /** The state before the context line: the four string fields stored. */
  function BeforeContext(name: string, input: string, expected: string, t: string): ScanState
  {
    Initial.(data := Fields(name, input, expected, t), buffer := Split(expected, '\n'))
  }

  lemma ScanBeforeContext(name: string, input: string, expected: string, t: string, contextHelp: seq<string>)
    requires Writable(name, input, expected, t, contextHelp)
    ensures RunFrom(Initial, Preamble(name) + BlockLines(Input, input) + OutputHelp
                             + BlockLines(ExpectedOutput, expected) + Lead(t, contextHelp))
         == BeforeContext(name, input, expected, t)
  {
    var blocks := Preamble(name) + BlockLines(Input, input) + OutputHelp + BlockLines(ExpectedOutput, expected);
    ScanBlocks(name, input, expected);
    ScanLead(AfterBlocks(name, input, expected), t, contextHelp);
    RunPair(Initial, blocks, Lead(t, contextHelp), AfterBlocks(name, input, expected),
            BeforeContext(name, input, expected, t));
  }

  /** Scanning a template: the four string fields are stored in order, and the
      context text is what the context line holds. */
  lemma ScanTemplate(name: string, input: string, expected: string, t: string,
                     contextHelp: seq<string>, context: string)
    requires Writable(name, input, expected, t, contextHelp) && OneLine(context)
    ensures RunFrom(Initial, TemplateLines(name, input, expected, t, contextHelp, context))
         == BeforeContext(name, input, expected, t).(contextSource := Strip(context))
  {
    var before := Preamble(name) + BlockLines(Input, input) + OutputHelp
                  + BlockLines(ExpectedOutput, expected) + Lead(t, contextHelp);
    var st := BeforeContext(name, input, expected, t);
    ScanBeforeContext(name, input, expected, t, contextHelp);
    ScanContextLine(st, context);
    RunPair(Initial, before, ContextLines(context), st, st.(contextSource := Strip(context)));
  }

  /** The parsed record of a template with the fields `fields` and the decoded
      context `j`. */
  lemma FinishFields<J>(name: string, input: string, expected: string, t: string, j: J)
    ensures Put(AsRecord<J>(Fields(name, input, expected, t)), ContextKey, Ctx(j))
         == [("name", Str(name)), ("input", Str(input)), ("expectedOutput", Str(expected)),
             (OutputTypeKey, Str(t)), (ContextKey, Ctx(j))]
  {
    var d := Fields(name, input, expected, t);
    var r := AsRecord<J>(d);
    assert r == [("name", Str(name)), ("input", Str(input)), ("expectedOutput", Str(expected)), (OutputTypeKey, Str(t))];
    assert ContextKey !in Keys(r);
    PutNew(r, ContextKey, Ctx(j));
  }

  /** Parsing a template with one-line context text gives back the four string
      fields, then the decoded context; or fails on that context text. */
  lemma RoundTrip<J>(name: string, input: string, expected: string, t: string,
                     contextHelp: seq<string>, context: string, decode: string -> Option<J>)
    requires Writable(name, input, expected, t, contextHelp) && OneLine(context)
    ensures Parsed(Render(Layout(name, input, expected, t, contextHelp, context)), decode)
         == match decode(Strip(context))
            case None => Failure(ContextDecodeError(Strip(context)))
            case Some(j) => Success([("name", Str(name)), ("input", Str(input)), ("expectedOutput", Str(expected)),
                                     (OutputTypeKey, Str(t)), (ContextKey, Ctx(j))])
  {
    SplitTemplate(name, input, expected, t, contextHelp, context);
    ScanTemplate(name, input, expected, t, contextHelp, context);
    match decode(Strip(context))
    case None =>
    case Some(j) => FinishFields(name, input, expected, t, j);
  }
}

=== FILE: save_rules.dfy ===
/** The small rules of `create_or_edit_test` and `select_test_to_edit` that
    decide where and in what shape a test is saved: the file name of a new
    test, the repair of the misspelled output-type key, and the numbered menu
    of existing tests. */
module SaveRules {
  import opened Wrappers
  import opened PyStr
  import opened OrderedDict
  import opened EditorParser
  import opened EditorTemplate

  // ---------------------------------------------------------------------
  // The file name of a new test.

  const DefaultFileStem := "new_test"
  const JsonSuffix := ".json"

  /** The file stem derived from a test's name: the name lower-cased, with
      every space turned into an underscore. */
  function Slug(name: string): string
  {
    Replace(Lower(name), ' ', '_')
  }

  /** The slug has the name's length, no space and no upper-case letter;
      every other character of the name is kept. */
  lemma SlugShape(name: string)
    ensures |Slug(name)| == |name|
    ensures ' ' !in Slug(name)
    ensures forall i :: 0 <= i < |name| ==> !IsAsciiUpper(Slug(name)[i])
    ensures forall i :: 0 <= i < |name| ==>
      Slug(name)[i] == if name[i] == ' ' then '_' else LowerChar(name[i])
  {
    var low := Lower(name);
    forall i | 0 <= i < |name|
      ensures Slug(name)[i] == if name[i] == ' ' then '_' else LowerChar(name[i])
    {
      assert low[i] == LowerChar(name[i]);
      assert name[i] == ' ' <==> low[i] == ' ';
    }
  }

  /** A name with no space and no upper-case letter is its own slug. */
  lemma SlugOfSlug(s: string)
    requires ' ' !in s && forall i :: 0 <= i < |s| ==> !IsAsciiUpper(s[i])
    ensures Slug(s) == s
  {
    SlugShape(s);
  }

  /** The file name with the `.json` suffix added, unless it already ends in it. */
  function WithJsonSuffix(f: string): (r: string)
    ensures |r| == if EndsWith(f, JsonSuffix) then |f| else |f| + |JsonSuffix|
    ensures EndsWith(r, JsonSuffix)
    ensures r[..|f|] == f
  {
    if EndsWith(f, JsonSuffix) then f else f + JsonSuffix
  }

  /** Adding the suffix twice is adding it once. */
  lemma SuffixIdempotent(f: string)
    ensures WithJsonSuffix(WithJsonSuffix(f)) == WithJsonSuffix(f)
  {
  }

  /** The file name under which a new test is saved: the `--filename`
      argument when one is given and non-empty, else the slug of the parsed
      name (`new_test` when the record has none); with `.json` added when
      missing. `name` is the parsed record's `name` entry, a string whenever
      present. */
  function TestFilename(filenameArg: Option<string>, name: Option<string>): (f: string)
    ensures EndsWith(f, JsonSuffix)
  {
    var stem :=
      match filenameArg
      case Some(a) => if a != "" then a else Slug(name.GetOr(DefaultFileStem))
      case None => Slug(name.GetOr(DefaultFileStem));
    WithJsonSuffix(stem)
  }

  /** A given file name is kept, with the suffix added when missing. */
  lemma GivenFilenameKept(a: string, name: Option<string>)
    requires a != ""
    ensures TestFilename(Some(a), name) == (if EndsWith(a, JsonSuffix) then a else a + JsonSuffix)
    ensures TestFilename(Some(a), name)[..|a|] == a
  {
  }

  /** Without a file name, the name is derived from the test's name: it
      starts with the slug of the name and holds no space. */
  lemma DerivedFilename(filenameArg: Option<string>, name: string)
    requires filenameArg == None || filenameArg == Some("")
    ensures TestFilename(filenameArg, Some(name))[..|name|] == Slug(name)
    ensures ' ' !in TestFilename(filenameArg, Some(name))
  {
    SlugShape(name);
  }

  /** A test without a name is saved as `new_test.json`. */
  lemma UnnamedFilename(filenameArg: Option<string>)
    requires filenameArg == None || filenameArg == Some("")
    ensures TestFilename(filenameArg, None) == DefaultFileStem + JsonSuffix
  {
    DefaultStemIsSlug();
    DefaultStemUnsuffixed();
  }

  lemma DefaultStemIsSlug()
    ensures Slug(DefaultFileStem) == DefaultFileStem
  {
    SlugOfSlug(DefaultFileStem);
  }

  lemma DefaultStemUnsuffixed()
    ensures !EndsWith(DefaultFileStem, JsonSuffix)
  {
    assert DefaultFileStem[3] != JsonSuffix[0];
  }

  // ---------------------------------------------------------------------
  // The misspelled output-type key.

  /** The repair of a record that holds its output type only under the
      misspelled key `exceptedOutputType`. The value moves
      to the end of the record under the correct key; every other entry keeps
      its value and its place. With both keys, or without the misspelled one,
      the record is unchanged. */
  method NormalizeOutputTypeKey<J>(data: Record<J>) returns (result: Record<J>)
    requires UniqueKeys(data)
    ensures UniqueKeys(result)
    ensures MisspelledOutputTypeKey in Keys(data) && OutputTypeKey !in Keys(data) ==>
      && Get(result, OutputTypeKey) == Get(data, MisspelledOutputTypeKey)
      && MisspelledOutputTypeKey !in Keys(result)
      && Keys(result) == Without(Keys(data), MisspelledOutputTypeKey) + [OutputTypeKey]
      && forall k :: k != OutputTypeKey && k != MisspelledOutputTypeKey ==> Get(result, k) == Get(data, k)
    ensures !(MisspelledOutputTypeKey in Keys(data) && OutputTypeKey !in Keys(data)) ==> result == data
  {
    result := data;
    if MisspelledOutputTypeKey in Keys(result) && OutputTypeKey !in Keys(result) {
      var v := Get(result, MisspelledOutputTypeKey).value;
      result := Remove(result, MisspelledOutputTypeKey);
      assert OutputTypeKey !in Keys(result);
      result := Put(result, OutputTypeKey, v);
    }
  }

  // ---------------------------------------------------------------------
  // The menu of existing tests.

  /** What one answer to the menu gives: no files at all (the script stops
      with status 1), an answer out of range (it asks again), or a file. */
  datatype Selection = NoTestFiles | OutOfRange | Chosen(path: string)

  /** The answer `choice`, already read as a number, to the menu of `files`
      numbered from 1. */
  function Select(files: seq<string>, choice: int): (s: Selection)
    ensures s == NoTestFiles <==> files == []
    ensures s.Chosen? <==> files != [] && 1 <= choice <= |files|
    ensures s.Chosen? ==> s.path == files[choice - 1] && s.path in files
  {
    if files == [] then NoTestFiles
    else
      var index := choice - 1;
      if 0 <= index < |files| then Chosen(files[index]) else OutOfRange
  }
}

=== FILE: template_cases.dfy ===
/** The two templates the script writes, read back by the parser: the blank
    template of a new test, and the template filled from a stored test. The
    filled template prints the context pretty-printed over several lines,
    which the parser does not read back; `FlatFilledTemplate` is the template
    with the context on one line. */
module TemplateCases {
  import opened Wrappers
  import opened PyStr
  import opened OrderedDict
  import opened EditorParser
  import opened ParserProperties
  import opened EditorTemplate
  import opened TemplateRoundTrip

  // ---------------------------------------------------------------------
  // The blank template.

  /** A one-line, stripped text that is not a comment is a block text. */
  lemma PlainBlockText(s: string)
    requires s != [] && s[0] != '#' && IsStripped(s) && OneLine(s)
    ensures BlockText(s)
  {
    StripStripped(s);
    SplitNoSeparator(s, '\n');
  }

  lemma BlankHelpIgnorable(i: nat)
    requires i < |BlankContextHelp|
    ensures Ignorable(BlankContextHelp[i])
  {
    if i == 0 {
      CommentIgnorable(BlankContextHelp[0]);
    } else if i == 1 {
      CommentIgnorable(BlankContextHelp[1]);
    } else if i == 2 {
      CommentIgnorable(BlankContextHelp[2]);
    } else if i == 3 {
      CommentIgnorable(BlankContextHelp[3]);
    } else {
      CommentIgnorable(BlankContextHelp[4]);
    }
  }

  lemma BlankContextHelpLines()
    ensures HelpLines(BlankContextHelp)
  {
    assert OneLine("# Remove the {} and add") && OneLine(" your context variables") && OneLine(" if needed, e.g.:");
    forall l | l in BlankContextHelp
      ensures Ignorable(l)
    {
      var i :| 0 <= i < |BlankContextHelp| && BlankContextHelp[i] == l;
      BlankHelpIgnorable(i);
    }
  }

  /** The placeholders of the blank template survive the round trip. */
  lemma BlankWritable()
    ensures Writable(DefaultName, DefaultInput, DefaultExpected, BlankOutputType, BlankContextHelp)
  {
    assert OneLine("Your TokenScript") && OneLine(" expression here");
    PlainBlockText(DefaultInput);
    PlainBlockText(DefaultExpected);
    BlankContextHelpLines();
  }

  /** Parsing the blank template unchanged gives the placeholder test: its
      name, input, expected output and output type as the template shows them
      (`Test name here`, `Your TokenScript expression here`, `Expected result
      here`, `Number`), and the context `{}` decoded. */
  lemma BlankRoundTrip<J>(decode: string -> Option<J>)
    ensures Parsed(BlankTemplate(), decode)
         == match decode("{}")
            case None => Failure(ContextDecodeError("{}"))
            case Some(j) => Success([("name", Str(DefaultName)),
                                     ("input", Str(DefaultInput)),
                                     ("expectedOutput", Str(DefaultExpected)),
                                     ("expectedOutputType", Str(BlankOutputType)),
                                     ("context", Ctx(j))])
  {
    BlankWritable();
    StripStripped("{}");
    RoundTrip(DefaultName, DefaultInput, DefaultExpected, BlankOutputType, BlankContextHelp, "{}", decode);
  }

  // ---------------------------------------------------------------------
  // The filled template.

  /** The field texts the filled template shows for `r`. */
  function NameText<J>(r: Record<J>, show: J -> string): string
  {
    FieldText(r, "name", DefaultName, show)
  }

  function InputText<J>(r: Record<J>, show: J -> string): string
  {
    FieldText(r, SectionKey(Input), DefaultInput, show)
  }

  function ExpectedText<J>(r: Record<J>, show: J -> string): string
  {
    FieldText(r, SectionKey(ExpectedOutput), DefaultExpected, show)
  }

  /** The field texts of `r` survive the round trip. */
  predicate FilledWritable<J>(r: Record<J>, show: J -> string, truthy: J -> bool)
  {
    Writable(NameText(r, show), InputText(r, show), ExpectedText(r, show), OutputType(r, show, truthy), [])
  }

  /** The record parsed back from the template of `r`, with context `j`. */
  function EditedRecord<J>(r: Record<J>, show: J -> string, truthy: J -> bool, j: J): Record<J>
  {
    [("name", Str(NameText(r, show))), ("input", Str(InputText(r, show))),
     ("expectedOutput", Str(ExpectedText(r, show))), (OutputTypeKey, Str(OutputType(r, show, truthy))),
     (ContextKey, Ctx(j))]
  }

  lemma EditedRecordKeys<J>(r: Record<J>, show: J -> string, truthy: J -> bool, j: J)
    ensures Keys(EditedRecord(r, show, truthy, j)) == ["name", "input", "expectedOutput", OutputTypeKey, ContextKey]
    ensures MisspelledOutputTypeKey !in Keys(EditedRecord(r, show, truthy, j))
    ensures Get(EditedRecord(r, show, truthy, j), OutputTypeKey) == Some(Str(OutputType(r, show, truthy)))
  {
    var e := EditedRecord(r, show, truthy, j);
    assert Keys(e) == ["name", "input", "expectedOutput", OutputTypeKey, ContextKey];
    assert Get(e, OutputTypeKey) == Some(e[3].1);
  }

  /** Parsing the filled template unchanged, when its context text is one
      line: the fields shown come back under the canonical keys, in template
      order, the context last. */
  lemma FilledRoundTrip<J>(r: Record<J>, contextText: string, show: J -> string, truthy: J -> bool,
                           decode: string -> Option<J>)
    requires FilledWritable(r, show, truthy) && OneLine(contextText)
    ensures Parsed(FilledTemplate(r, contextText, show, truthy), decode)
         == match decode(Strip(contextText))
            case None => Failure(ContextDecodeError(Strip(contextText)))
            case Some(j) => Success(EditedRecord(r, show, truthy, j))
  {
    RoundTrip(NameText(r, show), InputText(r, show), ExpectedText(r, show), OutputType(r, show, truthy),
              [], contextText, decode);
  }

  /** Editing a test stores its output type under the correct key: the value
      of the misspelled key when that value is truthy, else the value of the
      correct key, else nothing; the misspelled key is gone. */
  lemma EditRepairsOutputTypeKey<J>(r: Record<J>, contextText: string, show: J -> string, truthy: J -> bool,
                                    decode: string -> Option<J>)
    requires FilledWritable(r, show, truthy) && OneLine(contextText)
    requires decode(Strip(contextText)).Some?
    ensures var p := Parsed(FilledTemplate(r, contextText, show, truthy), decode);
      && p.Success?
      && MisspelledOutputTypeKey !in Keys(p.value)
      && Get(p.value, OutputTypeKey)
         == Some(Str(match Get(r, MisspelledOutputTypeKey)
                     case Some(v) =>
                       if Truthy(v, truthy) then Shown(v, show)
                       else FieldText(r, OutputTypeKey, "", show)
                     case None => FieldText(r, OutputTypeKey, "", show)))
  {
    FilledRoundTrip(r, contextText, show, truthy, decode);
    EditedRecordKeys(r, show, truthy, decode(Strip(contextText)).value);
  }

  /** An edit keeps only the five keys the template shows: any other key of
      the stored test is absent from the parsed record. */
  lemma EditDropsOtherKeys<J>(r: Record<J>, contextText: string, show: J -> string, truthy: J -> bool,
                              decode: string -> Option<J>, k: string)
    requires FilledWritable(r, show, truthy) && OneLine(contextText)
    requires decode(Strip(contextText)).Some?
    requires k !in ["name", "input", "expectedOutput", OutputTypeKey, ContextKey]
    ensures var p := Parsed(FilledTemplate(r, contextText, show, truthy), decode);
      && p.Success?
      && Keys(p.value) == ["name", "input", "expectedOutput", OutputTypeKey, ContextKey]
      && k !in Keys(p.value)
  {
    FilledRoundTrip(r, contextText, show, truthy, decode);
    EditedRecordKeys(r, show, truthy, decode(Strip(contextText)).value);
  }

  // ---------------------------------------------------------------------
  // The template generator as a whole.

  /** Parsing what the generator writes. With no stored test it gives the
      placeholder test. With a stored test it gives that test's fields under
      the correct keys, with the context last, provided the field texts
      survive the round trip and the context is printed on one line. */
  lemma GeneratedTemplateRoundTrip<J>(testData: Option<Record<J>>, contextText: string,
                                      show: J -> string, truthy: J -> bool, decode: string -> Option<J>)
    requires testData.Some? ==> FilledWritable(testData.value, show, truthy) && OneLine(contextText)
    ensures Parsed(GenerateEditorTemplate(testData, contextText, show, truthy), decode)
         == match testData
            case None =>
              (match decode("{}")
               case None => Failure(ContextDecodeError("{}"))
               case Some(j) => Success([("name", Str(DefaultName)),
                                        ("input", Str(DefaultInput)),
                                        ("expectedOutput", Str(DefaultExpected)),
                                        ("expectedOutputType", Str(BlankOutputType)),
                                        ("context", Ctx(j))]))
            case Some(r) =>
              (match decode(Strip(contextText))
               case None => Failure(ContextDecodeError(Strip(contextText)))
               case Some(j) => Success(EditedRecord(r, show, truthy, j)))
  {
    match testData
    case None => BlankRoundTrip(decode);
    case Some(r) => FilledRoundTrip(r, contextText, show, truthy, decode);
  }

  // ---------------------------------------------------------------------
  // A context that spans several lines.

  /** `json.dumps({"x": 3}, indent=2)`. */
  const IndentedContext := "{" + "\n" + IndentedEntry + "\n" + "}"
  const IndentedEntry := "  \"x\": 3"

  lemma SplitThree(a: string, b: string, c: string, sep: char)
    requires sep !in a && sep !in b && sep !in c
    ensures Split(a + [sep] + (b + [sep] + c), sep) == [a, b, c]
  {
    SplitAround(a, sep, b + [sep] + c);
    SplitAround(b, sep, c);
    SplitNoSeparator(a, sep);
    SplitNoSeparator(b, sep);
    SplitNoSeparator(c, sep);
  }

  lemma IndentedContextLines()
    ensures ContextLines(IndentedContext) == [ContextLineText("{"), IndentedEntry, "}", ""]
  {
    var a, b, c := ContextLineText("{"), IndentedEntry, "}";
    assert "\n" == ['\n'];
    assert ContextLineText(IndentedContext) == a + ['\n'] + (b + ['\n'] + c);
    assert OneLine("context: ") && OneLine(IndentedEntry);
    SplitThree(a, b, c, '\n');
  }

  /** Four lines scanned one by one. */
  lemma RunFour(st: ScanState, a: string, b: string, c: string, d: string)
    ensures RunFrom(st, [a, b, c, d]) == Step(Step(Step(Step(st, a), b), c), d)
  {
    assert [a, b, c, d] == [a, b, c] + [d];
    assert [a, b, c] == [a, b] + [c];
    assert [a, b] == [a] + [b];
    RunAppend(st, [a, b, c], [d]);
    RunAppend(st, [a, b], [c]);
    RunAppend(st, [a], [b]);
    RunOne(st, a);
    RunOne(RunFrom(st, [a]), b);
    RunOne(RunFrom(st, [a, b]), c);
    RunOne(RunFrom(st, [a, b, c]), d);
  }

  /** The line `  "x": 3` declares the key `"x"`, not `context`. */
  lemma IndentedLineNotContext()
    ensures !IsContextLine(IndentedEntry)
  {
    var key := "  \"x\"";
    assert IndentedEntry == key + [':'] + " 3";
    PartitionAt(key, ':', " 3");
    assert key == " " + (" " + "\"x\"");
    StripLeadingSpace(" " + "\"x\"");
    StripLeadingSpace("\"x\"");
    StripStripped("\"x\"");
  }

  /** Of the indented context only its first line, `{`, is read as the
      context text. */
  lemma IndentedContextScan(st: ScanState)
    requires st.section.None?
    ensures RunFrom(st, ContextLines(IndentedContext)).contextSource == "{"
  {
    IndentedContextLines();
    var a, b, c, d := ContextLineText("{"), IndentedEntry, "}", "";
    RunFour(st, a, b, c, d);
    ContextLineStep(st, "{");
    StripStripped("{");
    var s1 := Step(st, a);
    IndentedLineNotContext();
    NotContextLineStep(s1, b);
    NotContextLineStep(Step(s1, b), c);
    NotContextLineStep(Step(Step(s1, b), c), d);
  }

  /** As written: a stored test whose context is a non-empty object is
      printed over several lines, only `{` is read back, and the edit stops
      with the context error. */
  lemma IndentedContextFails<J>(r: Record<J>, show: J -> string, truthy: J -> bool, decode: string -> Option<J>)
    requires FilledWritable(r, show, truthy)
    requires decode("{").None?
    ensures Parsed(FilledTemplate(r, IndentedContext, show, truthy), decode) == Failure(ContextDecodeError("{"))
  {
    var name, input, expected, t := NameText(r, show), InputText(r, show), ExpectedText(r, show), OutputType(r, show, truthy);
    SplitTemplate(name, input, expected, t, [], IndentedContext);
    var before := Preamble(name) + BlockLines(Input, input) + OutputHelp
                  + BlockLines(ExpectedOutput, expected) + Lead(t, []);
    RunAppend(Initial, before, ContextLines(IndentedContext));
    ScanBeforeContext(name, input, expected, t, []);
    IndentedContextScan(BeforeContext(name, input, expected, t));
  }

  /** The context text with every newline turned into a space. Between JSON
      tokens a newline and a space mean the same, and `json.dumps` writes a
      newline inside a string as `\n`, so the flattened text holds the same
      value. */
  function Flatten(contextText: string): (flat: string)
    ensures OneLine(flat)
  {
    Replace(contextText, '\n', ' ')
  }

  /** The filled template with the context printed on one line. */
  function FlatFilledTemplate<J>(r: Record<J>, contextText: string, show: J -> string, truthy: J -> bool): string
  {
    FilledTemplate(r, Flatten(contextText), show, truthy)
  }

  /** With the context on one line the edit round trips whatever the context:
      for a decoder that reads the flattened text as the original, the parsed
      record holds the fields shown and the original context value. */
  lemma FlatFilledRoundTrip<J>(r: Record<J>, contextText: string, show: J -> string, truthy: J -> bool,
                               decode: string -> Option<J>)
    requires FilledWritable(r, show, truthy)
    requires decode(Strip(Flatten(contextText))) == decode(contextText)
    ensures Parsed(FlatFilledTemplate(r, contextText, show, truthy), decode)
         == match decode(contextText)
            case None => Failure(ContextDecodeError(Strip(Flatten(contextText))))
            case Some(j) => Success(EditedRecord(r, show, truthy, j))
  {
    FilledRoundTrip(r, Flatten(contextText), show, truthy, decode);
  }
}

=== FILE: wrappers.dfy ===
/** Optional values and results with an error, used for the places where the
    script either has nothing to give (a missing dictionary key) or stops with
    an error (`sys.exit(1)`). */
module Wrappers {

  datatype Option<+T> = None | Some(value: T) {
    /** The value, or `default` when there is none (Python's `d.get(k, default)`). */
    function GetOr(default: T): T {
      match this
      case Some(v) => v
      case None => default
    }
  }

  datatype Result<+R, +E> = Success(value: R) | Failure(error: E)
}
